=== FILE: README.md ===
# AI content repurposer — a Dafny model of its pure core

The application (`app.py`, a Streamlit page) turns an uploaded video or a
pasted article into a transcript, a summary, social-media posts and short
subtitled clips. Around the calls to Whisper, Gemini and ffmpeg sit a few
pure, deterministic pieces. This project models those pieces and proves
what they promise:

- **Engagement score and label** (`engagement.dfy`, module `Engagement`).
  The heuristic starts at 50. It adds a length band, 4 points per emoji
  (capped at 10), 3 points per `#` (capped at 10), and 4 points per
  call-to-action keyword found in the lower-cased post, then clamps to
  0..100. The label names the score's band and embeds `(score/100)`. Tips
  and the auto-upgrade button are offered below 80.
- **Subtitle generation** (`subtitles.dfy`, module `Subtitles`). The styled
  `.ass` document is a fixed header plus one `Dialogue:` line per segment.
  Timestamps are `H:MM:SS.CC`, computed with floor division and remainder
  on the time in seconds. Text is escaped: a newline becomes `\N`, and a
  brace gets a backslash. A segment's text is translated unless the
  language is `Original`. The spoken text is the translated parts joined by
  spaces.
- **Clip windowing** (`clips.dfy`, module `Clips`). The highlight list picks
  the segments that overlap a clip's window. Generating the clip shifts each
  segment by the clip start and clamps it to the clip. Segments left empty
  are dropped.
- **ffmpeg filter path** (`filterpath.dfy`, module `FilterPath`). The
  subtitle file path gets its backslashes turned into slashes and its
  colons escaped.
- **Session state** (`session.dfy`, module `Session`):
  - the defaults filled in on every run;
  - the `input` → `create` transition of the analyse button, with its
    warning and exception paths;
  - "Analyze New Content", which deletes every key but `stage`;
  - the per-clip text and path keys.
- **String helpers** (`text.dfy`, module `Text`). These are the Python
  string operations the code relies on, stated over `seq<char>`:
  - single-character `replace`;
  - `in` on strings;
  - `count`;
  - `lower`;
  - `strip`;
  - `" ".join`;
  - `str(n)` and `f"{n:02}"`.

Times are exact non-negative reals. The collaborators become function
parameters:
- the translator;
- the temporary-file write;
- the transcriber;
- the summariser.

Each of the last three returns either a value or a raised error.

All six files verify together, with Dafny 4.11 defaults or with
`dafny verify --resource-limit 2000000 --warn-contradictory-assumptions *.dfy`.

## Model

| member | source | states |
|---|---|---|
| `Engagement.EngagementScore` | app.py:99-108 | The score always lies in 0..100 and is never below 45, the base 50 minus the long-post penalty. |
| `Engagement.ScorePost` | app.py:99-108 | The statement-by-statement computation (length band, one pass for emoji, one for `#`, one test per keyword, clamp) yields a score in 0..100 equal to the reference score. |
| `Engagement.CountChars` | app.py:104-105 | The counting loop returns exactly the number of characters of the post that lie in the given set. |
| `Engagement.KeywordPoints` | app.py:106-107 | The keyword loop adds 4 for each keyword found and nothing else. |
| `Engagement.EmojiBonus` | app.py:104 | The emoji bonus is 4 per emoji up to two emoji and exactly 10 from three on; never more than 10. |
| `Engagement.TagBonus` | app.py:105 | The `#` bonus is 3 per `#` up to three and exactly 10 from four on; never more than 10. |
| `Engagement.KeywordBonus` | app.py:106-107 | The keyword bonus is a multiple of 4, at most 4 per keyword; it is 0 exactly when no keyword occurs and maximal exactly when all occur. |
| `Engagement.KeywordBonusCountsDistinctMatches` | app.py:106-107 | For a keyword list without repetitions the bonus is 4 times the number of distinct keywords found. |
| `Engagement.KeywordBonusPerDistinctKeyword` | app.py:106 | The application's six keywords are distinct, so each adds 4 at most once and the keyword bonus is at most 24. |
| `Engagement.LowerClampNeverFires` | app.py:100-108 | The unclamped score is at least 45, so the clamp only ever cuts at 100. |
| `Engagement.ScoreFromLengthAlone` | app.py:100-103 | With no emoji, no `#` and no keyword the score is 55 below 40 characters, 60 from 40 to 199, and 45 from 200 on. |
| `Engagement.ScoreLabel` | app.py:110-113 | The label starts with the words of the score's band and ends with `/100)`. |
| `Engagement.LabelRoundTrip` | app.py:110-113 | Every label reads back as its band (80 and up, 60 to 79, below 60) and the score itself. |
| `Engagement.TipsExactlyBelowViral` | app.py:385 | Tips and the upgrade button appear exactly when the band is not viral-ready, that is, for the solid and needs-improvement bands. |
| `Text.Occurs` | app.py:107 | Substring search is true exactly when the keyword sits at some position of the text. |
| `Text.Count` | app.py:105 | The count is at most the length and is 0 exactly when no character is in the set. |
| `Text.CountIsMultiplicity` | app.py:105 | Counting one character is its multiplicity in the string. |
| `Text.Lower` | app.py:107 | Lower-casing keeps the length, leaves no ASCII capital (nor the Kelvin sign), and keeps every other character, small letters and spaces included, in place. |
| `Text.LowerIdempotent` | app.py:107 | Lower-casing an already lower-cased text changes nothing. |
| `Text.OccursInLowerIgnoresCase` | app.py:107 | A lower-case ASCII keyword is found in the lower-cased text exactly when it occurs in the original text with its letters in any case. |
| `Text.CountLower` | app.py:104-107 | Lower-casing does not change how many characters of a set without ASCII letters nor the Kelvin sign the text holds. |
| `Engagement.KeywordsMatchIgnoringCase` | app.py:106-107 | Each of the six keywords earns its points exactly when it occurs in the post in any mix of upper and lower case: `SUBSCRIBE` and `Subscribe` count as `subscribe`. |
| `Engagement.ScoreIgnoresCase` | app.py:99-108 | For the model's length-keeping `Lower`, a post and its lower-cased form get the same score, provided no emoji character is an ASCII letter or the Kelvin sign. |
| `Text.Strip` | app.py:149 | The stripped text is a contiguous slice of the input, with no whitespace at either end. |
| `Text.ReplaceChar` | app.py:154 | Replacing a character that is absent changes nothing; a character absent from the replacement does not survive; every character of the result comes from the input or the replacement. |
| `Text.ReplaceCharConcat` | app.py:154 | Replacement distributes over concatenation. |
| `Text.SplitJoin` | app.py:156 | Joining parts with single spaces and splitting on the space gives the parts back, when there is at least one part and none holds a space. |
| `Text.LinesOfTerminated` | app.py:155 | Lines written one after another, each ended by a newline, read back as the same lines. |
| `Text.NatToString` | app.py:150 | The decimal rendering of a whole number is non-empty and all digits, starts with `0` only for zero, and is one digit long exactly below 10. |
| `Text.ParseNatToString` | app.py:150 | The decimal rendering of a whole number reads back as that number. |
| `Text.Pad2` | app.py:150 | The zero-padded rendering is all digits, at least two long, and exactly two long exactly for the values below 100. |
| `Text.ParsePad2` | app.py:150 | The zero-padded rendering reads back as the number it was written for. |
| `Text.ParseIntToString` | app.py:111 | The rendering of any integer, negative ones included, reads back as that integer. |
| `Subtitles.FloorScaled` | app.py:150 | Floor-dividing a non-negative time by a whole number of seconds is the whole seconds divided by it. |
| `Subtitles.ModScaled` | app.py:150 | The remainder by a whole number is non-negative and its whole part is the whole part of the time modulo that number. |
| `Subtitles.ClockOf` | app.py:150-151 | Hours are the whole seconds over 3600; minutes and seconds are below 60 and centiseconds below 100; the four fields recompose the whole number of centiseconds in the time. |
| `Subtitles.FormatTimestamp` | app.py:150-151 | A timestamp holds only digits, `:` and `.`. |
| `Subtitles.TimestampRoundTrip` | app.py:150-151 | A timestamp reads back as exactly the whole number of centiseconds in the time it was written for. |
| `Subtitles.EscapeText` | app.py:154 | Escaped text holds no newline; every brace in it comes right after a backslash; text without newline and braces is unchanged. |
| `Subtitles.EscapeEach` | app.py:154 | The per-character escape, the reference definition, has the same three properties. |
| `Subtitles.EscapeIsPerCharacter` | app.py:154 | The three replacements in a row equal escaping each character on its own: no replacement touches what an earlier one inserted. |
| `Subtitles.BackslashNCollides` | app.py:154 | Backslashes are not escaped: a text holding a backslash followed by `N` and a text holding a line break are written identically, as `\N`. |
| `Subtitles.DialogueRoundTrip` | app.py:150-155 | Every dialogue line reads back as its segment's start and end to the centisecond and its shown text escaped. |
| `Subtitles.DialogueBodySingleLine` | app.py:154-155 | No dialogue line contains a line break of its own. |
| `Subtitles.DialogueLinePerSegment` | app.py:146-155 | The dialogue section reads back as exactly one line per segment, in the segments' order. |
| `Subtitles.SpokenText` | app.py:149-152 | With `Original` the shown text is the segment's text with the whitespace at both ends removed; with any other language it is the translator's output for that stripped text. |
| `Subtitles.SpokenMatchesDialogue` | app.py:145-156 | The two results agree: the `i`-th dialogue line reads back with the `i`-th segment's times and the escaped `i`-th part of the spoken text. |
| `Subtitles.GenerateAss` | app.py:123-156 | The document starts with the header, and what follows reads back as the dialogue lines of the segments, one per segment, in order; the second result is the shown texts of the segments, in order, joined by single spaces. |
| `Subtitles.OriginalNeedsNoTranslator` | app.py:152 | With `Original` the translator is never consulted: any two translators give the same document and spoken text. |
| `Subtitles.OriginalSpokenIsStripped` | app.py:149-156 | With `Original` the spoken text is the stripped segment texts joined by single spaces. |
| `Clips.Retime` | app.py:74-79 | Every re-timed segment satisfies 0 ≤ start < end ≤ clip length; there are at most as many as input segments. |
| `Clips.RetimeSegments` | app.py:74-79 | The appending loop produces exactly the re-timed segments. |
| `Clips.KeptIffOverlaps` | app.py:76-78 | A segment survives re-timing exactly when the clip has positive length, the segment is not empty, and it overlaps the clip's window. |
| `Clips.RetimeSelectsOverlapping` | app.py:74-79 | Re-timing keeps exactly the overlapping non-empty segments, in their original order, each shifted and clamped with its text unchanged. |
| `Clips.OverlapPositions` | app.py:305 | The positions of the overlapping segments are ascending and are exactly the positions whose segment overlaps the window. |
| `Clips.Overlapping` | app.py:305 | The selection is the segments at the overlapping positions, one for one and in transcript order: nothing reordered, nothing dropped, nothing added. |
| `Clips.RetimeAfterOverlapping` | app.py:305 | Selecting the overlapping segments before re-timing, as the highlight list does, loses nothing that re-timing keeps. |
| `Clips.AnchorInOwnWindow` | app.py:302-305 | A clip anchored at a non-empty segment, with positive length, contains that segment and keeps part of it. |
| `Clips.ClipSubtitles` | app.py:73-80 | A clip's subtitle document is the header followed by one dialogue line per kept segment, at most one per input segment. |
| `Clips.ClipCuesWithinClip` | app.py:74-80 | Every dialogue line of a clip reads back with its start no later than its end and its end no later than the clip's length, to the centisecond. |
| `FilterPath.EscapeFilterPath` | app.py:47 | In the escaped path every backslash is immediately followed by `:` and every `:` immediately follows a backslash; a path without either is unchanged. |
| `FilterPath.PathEscapeIsPerCharacter` | app.py:47 | The two replacements in a row equal escaping each character on its own. |
| `FilterPath.UnescapeEscapedPath` | app.py:47 | Removing the colon escapes gives back the path with its backslashes turned into slashes. |
| `Session.ApplyDefaults` | app.py:199-201 | Filling in the defaults adds exactly the missing default keys with their default values and keeps every present key's value. |
| `Session.FillDefaults` | app.py:199-201 | The loop over the default entries fills in exactly the defaults. |
| `Session.ApplyDefaultsIdempotent` | app.py:199-201 | Filling in the defaults twice is filling them in once. |
| `Session.InputRun` | app.py:225-254 | An input-stage run reaches `create` only with an upload or pasted text, and leaves the stage either as it was, `input` or `create`. Without a press on this run or a remembered one, the state is unchanged. |
| `Session.NoContentOnlyWarns` | app.py:229-231 | A press with neither upload nor text only forgets the press: stage and everything else unchanged. |
| `Session.AnalysisReachesCreate` | app.py:232-252 | With content and every collaborator succeeding the run reaches `create`. The summary is of the transcript for an upload and of the pasted text otherwise, and the press is forgotten. An upload also leaves its segments and the file stored. |
| `Session.FailureReturnsToInput` | app.py:233-254 | If any collaborator raises, the run ends in `input` with the press forgotten, and a stored temporary path stays stored; otherwise it ends in `create`. A raise leaves the summary untouched, and a failed temporary-file write changes only the stage and the press. |
| `Session.CreateOnlyWithContent` | app.py:229-252 | A full run leaves a non-`create` stage for `create` only when there is content to analyse. |
| `Session.Analyze` | app.py:232-254 | The analysis always ends in `input` or `create` with the press forgotten; `create` comes with a summary and a transcript; pasted text is stored as transcript and article text; an upload stores its temporary path, and once transcribed its segments, transcript and file; only the analysis's own keys are written, and none is removed. |
| `Session.Run` | app.py:199-402 | A page run fills in the defaults, then in `create` with "Analyze New Content" pressed leaves only `stage = input`; in `create` otherwise it changes nothing further; apart from that reset no key present or defaulted goes missing. |
| `Session.RunKeepsStageValid` | app.py:199-402 | From a fresh session, or one whose stage is `input` or `create`, every run leaves the stage `input` or `create`. |
| `Session.Reset` | app.py:399-402 | Starting over leaves only the `stage` key, set to `input`. |
| `Session.ResetThenDefaultsIsFresh` | app.py:399-402 | After starting over, the next run's defaults give exactly a fresh session. |
| `Session.ClipKeysDistinct` | app.py:300-301 | Each clip index has its own text key and its own path key, and no text key is a path key. |
| `Session.SeedClipText` | app.py:307-308 | A clip's text is seeded once, with the stripped texts of its window's segments joined by spaces; an existing text and every other key are left alone. |
| `Session.FinishClip` | app.py:84-96 | A successful clip stores its path, and replaces the clip's text exactly when both path and spoken text are non-empty, leaving it alone otherwise; a failed clip stores nothing; no other key changes and no other key appears. |
| `Session.ClipWritesKeepStage` | app.py:84-96 | Neither per-clip write touches the stage. |

## Left out

- User interface: Streamlit widgets, markup, CSS, `update_progress`,
  `render_tips_box`, clipboard and download buttons. Widget contents enter
  the model as parameters (`Session.Inputs`, the `startOver` flag).
- External tools and I/O are left out:
  - `ffmpeg_cut`;
  - the subprocess calls of `ffmpeg_burn_subtitles` and their fallback;
  - the `-vf` string built around the escaped path;
  - temporary files, the font-file check and `mkdir`;
  - reading clip bytes.

  The temporary-file write, `transcribe_with_whisper` (always called with
  the model name `base`), `summarize_text` and `translate_text` are function
  parameters.
- Floating point: times are exact reals, so the rounding of Python floats
  in `t*100 % 100` and friends is not modelled.
- Missing segment fields: `generate_ass_from_segments` reads segments with
  `.get` defaults (start and end 0, empty text). The model's segments always
  carry all three fields, as every caller in the application supplies them.
- Text.Lower: folds only the ASCII capitals and the Kelvin sign. The other
  Unicode case mappings never produce an ASCII letter that could complete
  one of the ASCII keywords, so keyword matching is unaffected. (U+0130
  lowers to `i` followed by U+0307, and no keyword has U+0307 after an `i`.)
- Engagement.ScoreIgnoresCase: holds for the model's `Lower`, which keeps
  the length. Python's `lower()` turns U+0130 into two characters, so in the
  program a post holding U+0130 can change length band when lower-cased
  (39 characters score 55, their 40-character lower-cased form 60,
  app.py:100-102). The lemma does not promise that case.
- The label emoji at app.py:111-113 are stored in the source in a mis-decoded
  form. The model uses the characters they decode to: U+1F525 (fire),
  U+1F44D (thumbs up), and U+26A0 U+FE0F (warning sign).
- The font path: `generate_ass_from_segments` derives it from the working
  directory (app.py:125); the model takes it as a parameter `fontPath`.
- The emoji string at app.py:104 is a parameter `emoji: set<char>`: its
  characters are the heuristic's choice, not a property of it.
- The create stage's other writes are not part of `Session.Run`:
  - post generation (app.py:364-376);
  - the auto-upgrade (app.py:389-395);
  - the full-article translation (app.py:266-274);
  - the full captions (app.py:275-283).

  Each stores one collaborator result under a fixed key and never touches
  `stage`. The per-clip keys are modelled separately (`Session.SeedClipText`,
  `Session.FinishClip`).
- The clip-length and clip-count inputs and `segments[:num_clips]`
  (app.py:290-296) are widget plumbing. `Clips.AnchorInOwnWindow` states the
  window each listed segment gets.
- The captions offered for download as `.srt` (app.py:276-283) are the
  `.ass` document itself: the application has no separate SRT writer, so
  none is modelled.
- Engagement.ScoreLabel: states only the label's shape. What the label
  carries (band and score) is stated by `Engagement.LabelRoundTrip`.
- Backslashes in shown text: the application leaves them alone, and so does
  the model. Escaping is therefore not injective (`Subtitles.BackslashNCollides`). Whether a
  renderer treats `\{` as an escape is the renderer's business and is not
  modelled.
- Subtitles.GenerateAss: asks for non-negative segment times. Whisper never
  produces negative times, and re-timed clip segments start at 0 or later.
  Python's formatting of a negative time is therefore not modelled.

=== FILE: clips.dfy ===
/** Clip windowing: which transcript segments belong to a highlight clip,
    and how they are re-timed relative to the clip before its subtitles
    are written. A clip starts at `clipStart` seconds into the source and
    lasts `duration` seconds. */
module Clips {
  import opened Text
  import opened Subtitles

  function Max(a: real, b: real): real
  {
    if a >= b then a else b
  }

  function Min(a: real, b: real): real
  {
    if a <= b then a else b
  }

  // ---------------------------------------------------------------------
  // Selecting the segments that overlap a window.
  // ---------------------------------------------------------------------

  /** A segment overlaps the window from `from` to `until` when it starts
      before the window ends and ends after the window starts. */
  predicate Overlaps(seg: Segment, from: real, until: real)
  {
    seg.start < until && seg.end > from
  }

  /** The positions of the segments overlapping the window: ascending, and
      exactly the overlapping ones. */
  function OverlapPositions(segs: seq<Segment>, from: real, until: real): (idx: seq<nat>)
    ensures forall k :: 0 <= k < |idx| ==> idx[k] < |segs|
    ensures forall j, k :: 0 <= j < k < |idx| ==> idx[j] < idx[k]
    ensures forall i :: 0 <= i < |segs| ==> (i in idx <==> Overlaps(segs[i], from, until))
  {
    if |segs| == 0 then []
    else
      var init := OverlapPositions(segs[..|segs| - 1], from, until);
      assert forall i :: 0 <= i < |segs| - 1 ==> segs[..|segs| - 1][i] == segs[i];
      if Overlaps(segs[|segs| - 1], from, until) then init + [|segs| - 1] else init
  }

  /** The segments overlapping the window, in transcript order: the
      segments at the overlapping positions, one for one. */
  function Overlapping(segs: seq<Segment>, from: real, until: real): (r: seq<Segment>)
    ensures |r| == |OverlapPositions(segs, from, until)|
    ensures forall k :: 0 <= k < |r| ==> r[k] == segs[OverlapPositions(segs, from, until)[k]]
    ensures forall k :: 0 <= k < |r| ==> Overlaps(r[k], from, until) && r[k] in segs
    ensures forall i :: 0 <= i < |segs| && Overlaps(segs[i], from, until) ==> segs[i] in r
  {
    if |segs| == 0 then []
    else
      var init := Overlapping(segs[..|segs| - 1], from, until);
      var last := segs[|segs| - 1];
      assert forall i :: 0 <= i < |segs| - 1 ==> segs[..|segs| - 1][i] == segs[i];
      if Overlaps(last, from, until) then init + [last] else init
  }

  // ---------------------------------------------------------------------
  // Re-timing the selected segments to the clip.
  // ---------------------------------------------------------------------

  /** One segment moved onto the clip's own timeline: shifted back by the
      clip start, with the start raised to 0 and the end lowered to the
      clip's length. */
  function Shift(seg: Segment, clipStart: real, duration: real): Segment
  {
    Segment(Max(0.0, seg.start - clipStart), Min(duration, seg.end - clipStart), seg.text)
  }

  /** A segment survives re-timing when something of it is left. */
  predicate Kept(seg: Segment, clipStart: real, duration: real)
  {
    Shift(seg, clipStart, duration).start < Shift(seg, clipStart, duration).end
  }

  /** The re-timed segments of a clip, in order, without the empty ones. */
  function Retime(segs: seq<Segment>, clipStart: real, duration: real): (r: seq<Segment>)
    ensures |r| <= |segs|
    ensures forall k :: 0 <= k < |r| ==> 0.0 <= r[k].start < r[k].end <= duration
  {
    if |segs| == 0 then []
    else
      var init := Retime(segs[..|segs| - 1], clipStart, duration);
      var last := segs[|segs| - 1];
      if Kept(last, clipStart, duration) then init + [Shift(last, clipStart, duration)] else init
  }

  /** The re-timing loop as the application writes it: one pass over the
      segments, appending each non-empty re-timed segment. */
  method RetimeSegments(segs: seq<Segment>, clipStart: real, duration: real) returns (adjusted: seq<Segment>)
    ensures adjusted == Retime(segs, clipStart, duration)
  {
    adjusted := [];
    var i := 0;
    while i < |segs|
      invariant 0 <= i <= |segs|
      invariant adjusted == Retime(segs[..i], clipStart, duration)
    {
      assert segs[..i + 1][..i] == segs[..i];
      var newStart := Max(0.0, segs[i].start - clipStart);
      var newEnd := Min(duration, segs[i].end - clipStart);
      if newStart < newEnd {
        adjusted := adjusted + [Segment(newStart, newEnd, segs[i].text)];
      }
      i := i + 1;
    }
    assert segs[..i] == segs;
  }

  /** A segment keeps a non-empty part exactly when it overlaps the clip,
      the clip has a positive length, and the segment itself is not empty. */
  lemma KeptIffOverlaps(seg: Segment, clipStart: real, duration: real)
    ensures Kept(seg, clipStart, duration)
            <==> duration > 0.0 && seg.start < seg.end && Overlaps(seg, clipStart, clipStart + duration)
  {
  }

  /** The positions of the segments that survive re-timing, ascending. */
  function KeptPositions(segs: seq<Segment>, clipStart: real, duration: real): (idx: seq<nat>)
    ensures forall k :: 0 <= k < |idx| ==> idx[k] < |segs|
  {
    if |segs| == 0 then []
    else
      var init := KeptPositions(segs[..|segs| - 1], clipStart, duration);
      if Kept(segs[|segs| - 1], clipStart, duration) then init + [|segs| - 1] else init
  }

  /** Re-timing keeps exactly the segments that overlap the clip, in their
      original order, each shifted onto the clip's timeline with its text
      unchanged. */
  lemma {:induction false} RetimeSelectsOverlapping(segs: seq<Segment>, clipStart: real, duration: real)
    ensures var r := Retime(segs, clipStart, duration);
            var idx := KeptPositions(segs, clipStart, duration);
            && |idx| == |r|
            && (forall k :: 0 <= k < |r| ==> r[k] == Shift(segs[idx[k]], clipStart, duration))
            && (forall k :: 0 <= k < |r| ==> r[k].text == segs[idx[k]].text)
            && (forall j, k :: 0 <= j < k < |idx| ==> idx[j] < idx[k])
            && (forall i :: 0 <= i < |segs| ==>
                  (i in idx <==> duration > 0.0 && segs[i].start < segs[i].end
                                 && Overlaps(segs[i], clipStart, clipStart + duration)))
  {
    KeptPositionsExact(segs, clipStart, duration);
    forall i | 0 <= i < |segs| {
      KeptIffOverlaps(segs[i], clipStart, duration);
    }
  }

  lemma {:induction false} KeptPositionsExact(segs: seq<Segment>, clipStart: real, duration: real)
    ensures var r := Retime(segs, clipStart, duration);
            var idx := KeptPositions(segs, clipStart, duration);
            && |idx| == |r|
            && (forall k :: 0 <= k < |r| ==> r[k] == Shift(segs[idx[k]], clipStart, duration))
            && (forall j, k :: 0 <= j < k < |idx| ==> idx[j] < idx[k])
            && (forall i :: 0 <= i < |segs| ==> (i in idx <==> Kept(segs[i], clipStart, duration)))
  {
    if |segs| > 0 {
      var init := segs[..|segs| - 1];
      KeptPositionsExact(init, clipStart, duration);
      forall i | 0 <= i < |init|
        ensures init[i] == segs[i]
      {
      }
    }
  }

  /** Selecting the overlapping segments first, as the highlight list
      does, loses nothing that re-timing would keep. */
  lemma {:induction false} RetimeAfterOverlapping(segs: seq<Segment>, clipStart: real, duration: real)
    ensures Retime(Overlapping(segs, clipStart, clipStart + duration), clipStart, duration)
            == Retime(segs, clipStart, duration)
  {
    if |segs| > 0 {
      var init := segs[..|segs| - 1];
      var last := segs[|segs| - 1];
      var until := clipStart + duration;
      RetimeAfterOverlapping(init, clipStart, duration);
      KeptIffOverlaps(last, clipStart, duration);
      var sel := Overlapping(init, clipStart, until);
      if Overlaps(last, clipStart, until) {
        assert Overlapping(segs, clipStart, until) == sel + [last];
        assert (sel + [last])[..|sel + [last]| - 1] == sel;
      } else {
        assert Overlapping(segs, clipStart, until) == sel;
      }
    }
  }

  /** A highlight clip starts at its anchor segment; when the clip has a
      positive length and the segment is not empty, the anchor is among
      the clip's overlapping segments. */
  lemma AnchorInOwnWindow(segs: seq<Segment>, i: nat, clipLen: real)
    requires i < |segs| && clipLen > 0.0 && segs[i].start < segs[i].end
    ensures segs[i] in Overlapping(segs, segs[i].start, segs[i].start + clipLen)
    ensures Kept(segs[i], segs[i].start, clipLen)
  {
  }

  // ---------------------------------------------------------------------
  // The clip's subtitles.
  // ---------------------------------------------------------------------

  /** The subtitle document and spoken text written for a clip: its
      segments re-timed, then laid out as dialogue lines. */
  function ClipSubtitles(clipSegs: seq<Segment>, clipStart: real, duration: real,
                         language: string, translate: Translator, fontPath: string): (r: AssOutput)
    ensures Header(fontPath) <= r.document
    ensures Lines(r.document[|Header(fontPath)|..]) == DialogueBodies(Retime(clipSegs, clipStart, duration), language, translate)
    ensures |Lines(r.document[|Header(fontPath)|..])| <= |clipSegs|
  {
    GenerateAss(Retime(clipSegs, clipStart, duration), language, translate, fontPath)
  }

  /** A dialogue line that reads back with its start no later than its
      end, and its end no later than `limit` centiseconds. */
  predicate CueInside(line: string, limit: int)
  {
    match ParseDialogue(line)
    case Some(c) => c.startCentis <= c.endCentis <= limit
    case None => false
  }

  /** Every dialogue line of a clip reads back with times inside the clip:
      start no later than end, end no later than the clip's length, to the
      centisecond. */
  lemma ClipCuesWithinClip(clipSegs: seq<Segment>, clipStart: real, duration: real,
                           language: string, translate: Translator, fontPath: string)
    ensures var r := ClipSubtitles(clipSegs, clipStart, duration, language, translate, fontPath);
            var lines := Lines(r.document[|Header(fontPath)|..]);
            forall k :: 0 <= k < |lines| ==> CueInside(lines[k], (duration * 100.0).Floor)
  {
    CuesWithin(Retime(clipSegs, clipStart, duration), duration, language, translate);
  }

  lemma CuesWithin(segs: seq<Segment>, duration: real, language: string, translate: Translator)
    requires forall k :: 0 <= k < |segs| ==> 0.0 <= segs[k].start <= segs[k].end <= duration
    ensures forall k :: 0 <= k < |segs| ==>
              CueInside(DialogueBodies(segs, language, translate)[k], (duration * 100.0).Floor)
  {
    forall k | 0 <= k < |segs|
      ensures CueInside(DialogueBodies(segs, language, translate)[k], (duration * 100.0).Floor)
    {
      CueWithin(segs[k], duration, language, translate);
    }
  }

  /** The cue read back from a segment lying inside the clip. */
  lemma CueWithin(seg: Segment, duration: real, language: string, translate: Translator)
    requires 0.0 <= seg.start <= seg.end <= duration
    ensures CueInside(DialogueBody(seg, language, translate), (duration * 100.0).Floor)
  {
    DialogueRoundTrip(seg, language, translate);
    FloorMonotonic(seg.start * 100.0, seg.end * 100.0);
    FloorMonotonic(seg.end * 100.0, duration * 100.0);
  }

  lemma FloorMonotonic(x: real, y: real)
    requires x <= y
    ensures x.Floor <= y.Floor
  {
  }
}

=== FILE: engagement.dfy ===
/** The engagement-score heuristic shown next to every generated post, and
    the label that presents it. The score is integer arithmetic over the
    post's text: a length band, a capped bonus for emoji, a capped bonus
    for `#`, and a bonus for each call-to-action keyword, clamped to
    0..100. */
module Engagement {
  import opened Text

  /** The call-to-action keywords, each matched at most once, on the
      lower-cased post. */
  const Keywords: seq<string> := ["subscribe", "follow", "comment", "share", "link in bio", "join"]

  const BaseScore := 50

  /** Length band: short posts gain 5, mid-length posts gain 10, posts of
      200 characters or more lose 5. */
  function LengthAdjustment(len: nat): int
  {
    if len < 40 then 5 else if len < 200 then 10 else -5
  }

  /** Four points per emoji, capped at ten. */
  function EmojiBonus(count: nat): (b: nat)
    ensures b <= 10 && b <= 4 * count
    ensures count <= 2 ==> b == 4 * count
    ensures count >= 3 ==> b == 10
  {
    if count * 4 < 10 then count * 4 else 10
  }

  /** Three points per `#`, capped at ten. */
  function TagBonus(count: nat): (b: nat)
    ensures b <= 10 && b <= 3 * count
    ensures count <= 3 ==> b == 3 * count
    ensures count >= 4 ==> b == 10
  {
    if count * 3 < 10 then count * 3 else 10
  }

  /** Four points for each keyword of `words` found in `text`. */
  function KeywordBonus(text: string, words: seq<string>): (b: nat)
    ensures b % 4 == 0 && b <= 4 * |words|
    ensures b == 0 <==> forall k :: 0 <= k < |words| ==> !Occurs(words[k], text)
    ensures b == 4 * |words| <==> forall k :: 0 <= k < |words| ==> Occurs(words[k], text)
  {
    if |words| == 0 then 0
    else
      var init := words[..|words| - 1];
      assert forall k :: 0 <= k < |init| ==> init[k] == words[k];
      KeywordBonus(text, init) + (if Occurs(words[|words| - 1], text) then 4 else 0)
  }

  /** The score before clamping. */
  function RawScore(post: string, emoji: set<char>): int
  {
    BaseScore + LengthAdjustment(|post|)
    + EmojiBonus(Count(post, emoji))
    + TagBonus(Count(post, {'#'}))
    + KeywordBonus(Lower(post), Keywords)
  }

  function Clamp(x: int): int
  {
    if x < 0 then 0 else if x > 100 then 100 else x
  }

  /** The engagement score of a post. `emoji` is the set of characters the
      heuristic counts as emoji. */
  function EngagementScore(post: string, emoji: set<char>): (r: int)
    ensures 0 <= r <= 100
    ensures r >= BaseScore - 5
  {
    Clamp(RawScore(post, emoji))
  }

  /** How many characters of `s` lie in `chars`, one pass left to right
      (the generator expression over the post, and `post.count("#")`). */
  method CountChars(s: string, chars: set<char>) returns (n: nat)
    ensures n == Count(s, chars)
  {
    n := 0;
    var i := 0;
    while i < |s|
      invariant 0 <= i <= |s|
      invariant n == Count(s[..i], chars)
    {
      CountSnoc(s[..i], s[i], chars);
      assert s[..i + 1] == s[..i] + [s[i]];
      if s[i] in chars {
        n := n + 1;
      }
      i := i + 1;
    }
    assert s[..i] == s;
  }

  /** The keyword loop: four points for every keyword found in `text`. */
  method KeywordPoints(text: string, words: seq<string>) returns (points: nat)
    ensures points == KeywordBonus(text, words)
  {
    points := 0;
    var k := 0;
    while k < |words|
      invariant 0 <= k <= |words|
      invariant points == KeywordBonus(text, words[..k])
    {
      assert words[..k + 1][..k] == words[..k];
      if Occurs(words[k], text) {
        points := points + 4;
      }
      k := k + 1;
    }
    assert words[..k] == words;
  }

  /** The heuristic as the application computes it: the length band, one
      pass over the characters for emoji, one for `#`, one test per
      keyword, then the clamp. */
  method ScorePost(post: string, emoji: set<char>) returns (score: int)
    ensures 0 <= score <= 100
    ensures score == EngagementScore(post, emoji)
  {
    score := BaseScore;
    var l := |post|;
    if l < 40 {
      score := score + 5;
    } else if l < 200 {
      score := score + 10;
    } else {
      score := score - 5;
    }
    var emojis := CountChars(post, emoji);
    score := score + (if 10 < emojis * 4 then 10 else emojis * 4);
    var tags := CountChars(post, {'#'});
    score := score + (if 10 < tags * 3 then 10 else tags * 3);
    var points := KeywordPoints(Lower(post), Keywords);
    score := score + points;
    score := if score < 0 then 0 else if score > 100 then 100 else score;
  }

  /** The lower clamp never fires: the raw score is at least 45. */
  lemma LowerClampNeverFires(post: string, emoji: set<char>)
    ensures RawScore(post, emoji) >= BaseScore - 5
    ensures EngagementScore(post, emoji) == if RawScore(post, emoji) > 100 then 100 else RawScore(post, emoji)
  {
  }

  /** With no emoji, no `#` and no keyword, the length band alone decides
      the score. */
  lemma ScoreFromLengthAlone(post: string, emoji: set<char>)
    requires forall i :: 0 <= i < |post| ==> post[i] !in emoji
    requires '#' !in post
    requires forall k :: 0 <= k < |Keywords| ==> !Occurs(Keywords[k], Lower(post))
    ensures |post| < 40 ==> EngagementScore(post, emoji) == 55
    ensures 40 <= |post| < 200 ==> EngagementScore(post, emoji) == 60
    ensures |post| >= 200 ==> EngagementScore(post, emoji) == 45
  {
    assert Count(post, {'#'}) == 0;
  }

  /** Every keyword is found in the lower-cased post exactly when it
      occurs in the post with its letters in any case. */
  lemma KeywordsMatchIgnoringCase(post: string)
    ensures forall k :: 0 <= k < |Keywords| ==>
              (Occurs(Keywords[k], Lower(post)) <==> exists i :: MatchIgnoringCase(Keywords[k], post, i))
  {
    forall k | 0 <= k < |Keywords|
      ensures Occurs(Keywords[k], Lower(post)) <==> exists i :: MatchIgnoringCase(Keywords[k], post, i)
    {
      assert LowerAscii(Keywords[k]);
      OccursInLowerIgnoresCase(Keywords[k], post);
    }
  }

  /** The case of the post's letters does not change its score, provided
      no emoji is an ASCII letter or the Kelvin sign. */
  lemma ScoreIgnoresCase(post: string, emoji: set<char>)
    requires forall c :: c in emoji ==> !Folded(c) && !('a' <= c <= 'z')
    ensures EngagementScore(Lower(post), emoji) == EngagementScore(post, emoji)
  {
    CountLower(post, emoji);
    CountLower(post, {'#'});
    LowerIdempotent(post);
  }

  /** Keyword `w` appears in `text`: the test made for each keyword. */
  predicate KeywordFound(text: string, w: string)
  {
    Occurs(w, text)
  }

  /** A keyword list without repetitions contributes four points per
      distinct keyword present: no keyword is rewarded twice. */
  lemma {:induction false} KeywordBonusCountsDistinctMatches(text: string, words: seq<string>)
    requires forall a, b :: 0 <= a < b < |words| ==> words[a] != words[b]
    ensures KeywordBonus(text, words) == 4 * |set w | w in words && KeywordFound(text, w)|
  {
    if |words| > 0 {
      var init := words[..|words| - 1];
      var last := words[|words| - 1];
      KeywordBonusCountsDistinctMatches(text, init);
      var before := set w | w in init && KeywordFound(text, w);
      var after := set w | w in words && KeywordFound(text, w);
      assert words == init + [last];
      assert last !in init;
      var found := KeywordFound(text, last);
      FoundSnoc(text, init, last);
      if found {
        assert |after| == |before| + 1;
      }
    }
  }

  /** Appending a keyword adds it to the keywords found exactly when it
      occurs. */
  lemma FoundSnoc(text: string, init: seq<string>, last: string)
    ensures (set w | w in init + [last] && KeywordFound(text, w))
            == (set w | w in init && KeywordFound(text, w)) + (if KeywordFound(text, last) then {last} else {})
  {
    var words := init + [last];
    assert forall w :: w in words <==> w in init || w == last;
  }

  /** The application's keyword list has no repetitions, so the keyword
      bonus is four points per distinct keyword found, at most 24. */
  lemma KeywordBonusPerDistinctKeyword(post: string)
    ensures KeywordBonus(Lower(post), Keywords) == 4 * |set w | w in Keywords && KeywordFound(Lower(post), w)|
    ensures KeywordBonus(Lower(post), Keywords) <= 24
  {
    KeywordBonusCountsDistinctMatches(Lower(post), Keywords);
  }

  // ---------------------------------------------------------------------
  // The label shown beside the score.
  // ---------------------------------------------------------------------

  datatype Band = ViralReady | Solid | NeedsImprovement

  function BandOf(score: int): Band
  {
    if score >= 80 then ViralReady
    else if score >= 60 then Solid
    else NeedsImprovement
  }

  /** The words of each band, each led by its emoji: a fire, a thumbs-up,
      and a warning sign with its emoji presentation selector. */
  function BandText(b: Band): string
  {
    match b
    case ViralReady => "\U{1F525} Viral-ready"
    case Solid => "\U{1F44D} Solid"
    case NeedsImprovement => "\U{26A0}\U{FE0F} Needs improvement"
  }

  /** The label: the band's words, then the score out of 100 in parentheses. */
  function ScoreLabel(score: int): (r: string)
    ensures BandText(BandOf(score)) <= r
    ensures |r| >= 5 && r[|r| - 5..] == "/100)"
  {
    BandText(BandOf(score)) + " (" + IntToString(score) + "/100)"
  }

  /** Reads a label back into its band and score. */
  function ParseLabel(shown: string): Option<(Band, int)>
  {
    if |shown| < 5 || shown[|shown| - 5..] != "/100)" then None
    else
      var body := shown[..|shown| - 5];
      if BandText(ViralReady) + " (" <= body then Some((ViralReady, ParseInt(body[|BandText(ViralReady)| + 2..])))
      else if BandText(Solid) + " (" <= body then Some((Solid, ParseInt(body[|BandText(Solid)| + 2..])))
      else if BandText(NeedsImprovement) + " (" <= body then Some((NeedsImprovement, ParseInt(body[|BandText(NeedsImprovement)| + 2..])))
      else None
  }

  /** Every label names its score's band and embeds the score itself. */
  lemma LabelRoundTrip(score: int)
    ensures ParseLabel(ScoreLabel(score)) == Some((BandOf(score), score))
  {
    var shown := ScoreLabel(score);
    var b := BandOf(score);
    var prefix := BandText(b) + " (";
    var digits := IntToString(score);
    assert shown == prefix + digits + "/100)";
    var body := shown[..|shown| - 5];
    assert body == prefix + digits;
    assert body[|prefix|..] == digits;
    assert body[0] == BandText(b)[0];
    ParseIntToString(score);
    if b != ViralReady {
      assert !(BandText(ViralReady) + " (" <= body) by {
        assert (BandText(ViralReady) + " (")[0] != body[0];
      }
    }
    if b == NeedsImprovement {
      assert !(BandText(Solid) + " (" <= body) by {
        assert (BandText(Solid) + " (")[0] != body[0];
      }
    }
  }

  /** The improvement tips and the auto-upgrade button are offered for
      every score below 80. */
  predicate ShowsTips(score: int)
  {
    score < 80
  }

  /** Tips are offered exactly when the label is not the viral-ready band,
      that is, exactly for the solid and needs-improvement bands. */
  lemma TipsExactlyBelowViral(score: int)
    ensures ShowsTips(score) <==> BandOf(score) != ViralReady
    ensures ShowsTips(score) <==> BandOf(score) == Solid || BandOf(score) == NeedsImprovement
    ensures BandOf(score) == Solid <==> 60 <= score < 80
  {
  }
}

=== FILE: filterpath.dfy ===
/** The subtitle file path as handed to ffmpeg's `subtitles` filter:
    backslashes become forward slashes, and every colon gets a backslash
    so that the filter-graph parser does not read it as an option
    separator. */
module FilterPath {
  import opened Text

  /** A backslash at position `i` of `r` is the first half of `\:`. */
  predicate BackslashStartsEscapeAt(r: string, i: int)
    requires 0 <= i < |r|
  {
    r[i] == '\\' ==> i + 1 < |r| && r[i + 1] == ':'
  }

  /** A colon at position `i` of `r` is the second half of `\:`. */
  predicate ColonEscapedAt(r: string, i: int)
    requires 0 <= i < |r|
  {
    r[i] == ':' ==> i > 0 && r[i - 1] == '\\'
  }

  /** The application's escaping: two replacements in a row, `\` to `/`,
      then `:` to `\:`. */
  function EscapeFilterPath(p: string): (r: string)
    ensures forall i :: 0 <= i < |r| ==> BackslashStartsEscapeAt(r, i)
    ensures forall i :: 0 <= i < |r| ==> ColonEscapedAt(r, i)
    ensures '\\' !in p && ':' !in p ==> r == p
  {
    PathEscapeIsPerCharacter(p);
    ReplaceChar(ReplaceChar(p, '\\', "/"), ':', "\\:")
  }

  /** What one path character becomes once escaped. */
  function EscapePathChar(c: char): string
  {
    if c == '\\' then "/"
    else if c == ':' then "\\:"
    else [c]
  }

  /** Path escaping stated one character at a time;
      `PathEscapeIsPerCharacter` proves the two-step replacement equal to it. */
  function EscapePathEach(p: string): (r: string)
    ensures |r| > 0 ==> r[0] != ':'
    ensures forall i :: 0 <= i < |r| ==> BackslashStartsEscapeAt(r, i)
    ensures forall i :: 0 <= i < |r| ==> ColonEscapedAt(r, i)
    ensures '\\' !in p && ':' !in p ==> r == p
  {
    if |p| == 0 then ""
    else
      var head := EscapePathChar(p[0]);
      var tail := EscapePathEach(p[1..]);
      assert forall i :: |head| <= i < |head| + |tail| ==>
               BackslashStartsEscapeAt(head + tail, i) && ColonEscapedAt(head + tail, i) by {
        forall i | |head| <= i < |head| + |tail|
          ensures BackslashStartsEscapeAt(head + tail, i) && ColonEscapedAt(head + tail, i)
        {
          assert (head + tail)[i] == tail[i - |head|];
          assert BackslashStartsEscapeAt(tail, i - |head|);
          assert ColonEscapedAt(tail, i - |head|);
          if i + 1 < |head| + |tail| {
            assert (head + tail)[i + 1] == tail[i + 1 - |head|];
          }
          if i > |head| {
            assert (head + tail)[i - 1] == tail[i - 1 - |head|];
          }
        }
      }
      assert forall i :: 0 <= i < |head| ==> BackslashStartsEscapeAt(head + tail, i) by {
        if p[0] == ':' {
          assert (head + tail)[0] == '\\' && (head + tail)[1] == ':';
        }
      }
      head + tail
  }

  /** The two replacements in a row escape each character on its own: the
      colon step never meets a backslash, since the first step removed
      them all. */
  lemma {:induction false} PathEscapeIsPerCharacter(p: string)
    ensures ReplaceChar(ReplaceChar(p, '\\', "/"), ':', "\\:") == EscapePathEach(p)
  {
    if |p| > 0 {
      var c := p[0];
      var rest := p[1..];
      assert p == [c] + rest;
      var a1 := ReplaceChar([c], '\\', "/");
      var b1 := ReplaceChar(rest, '\\', "/");
      ReplaceCharConcat([c], rest, '\\', "/");
      ReplaceCharConcat(a1, b1, ':', "\\:");
      assert [c][1..] == [];
      if c == '\\' {
        assert a1 == "/";
        assert "/"[1..] == "";
      } else if c == ':' {
        assert a1 == ":";
        assert ":"[1..] == "";
      }
      PathEscapeIsPerCharacter(rest);
    }
  }

  /** Reads an escaped path back: every `\:` becomes `:`. */
  function UnescapeColons(r: string): string
    decreases |r|
  {
    if |r| >= 2 && r[0] == '\\' && r[1] == ':' then ":" + UnescapeColons(r[2..])
    else if |r| == 0 then ""
    else [r[0]] + UnescapeColons(r[1..])
  }

  /** Escaping loses nothing but the backslash-to-slash conversion: reading
      the escaped path back gives the path with forward slashes. */
  lemma {:induction false} UnescapeEscapedPath(p: string)
    ensures UnescapeColons(EscapeFilterPath(p)) == ReplaceChar(p, '\\', "/")
  {
    PathEscapeIsPerCharacter(p);
    UnescapeEach(p);
  }

  lemma {:induction false} UnescapeEach(p: string)
    ensures UnescapeColons(EscapePathEach(p)) == ReplaceChar(p, '\\', "/")
  {
    if |p| > 0 {
      var c := p[0];
      var tail := EscapePathEach(p[1..]);
      UnescapeEach(p[1..]);
      if c == ':' {
        assert EscapePathEach(p) == "\\:" + tail;
        assert ("\\:" + tail)[2..] == tail;
      } else {
        assert EscapePathEach(p) == [if c == '\\' then '/' else c] + tail;
        assert ([if c == '\\' then '/' else c] + tail)[1..] == tail;
      }
    }
  }
}

=== FILE: session.dfy ===
/** The session state that survives between runs of the page script, and
    the stage machine it carries: `input` until some content has been
    analysed, then `create` until the user starts over. Every run first
    fills in the missing defaults; the transcriber, the summariser and the
    temporary-file write are parameters that may fail. */
module Session {
  import opened Text
  import opened Subtitles

  /** An uploaded media file, as the upload widget hands it over. */
  datatype Upload = Upload(name: string, content: seq<int>)

  /** The values the application keeps in its session state. */
  datatype Value =
    | Str(s: string)
    | Flag(b: bool)
    | Segs(segs: seq<Segment>)
    | Posts(posts: map<string, string>)
    | Items(items: seq<string>)
    | File(upload: Upload)
    | Nothing

  type State = map<string, Value>

  /** Python truthiness of a stored value: empty strings, lists and
      dictionaries, `False` and `None` are false. */
  predicate Truthy(v: Value)
  {
    match v
    case Str(s) => |s| > 0
    case Flag(b) => b
    case Segs(segs) => |segs| > 0
    case Posts(posts) => |posts| > 0
    case Items(items) => |items| > 0
    case File(_) => true
    case Nothing => false
  }

  /** `session_state.get(key)`: the stored value, or `None`. */
  function Get(st: State, key: string): Value
  {
    if key in st then st[key] else Nothing
  }

  const InputStage := Str("input")
  const CreateStage := Str("create")

  // ---------------------------------------------------------------------
  // Defaults.
  // ---------------------------------------------------------------------

  /** The defaults, in the order the application lists them. */
  const DefaultEntries: seq<(string, Value)> := [
    ("stage", InputStage),
    ("segments", Segs([])),
    ("transcript", Str("")),
    ("summary", Str("")),
    ("generated", Posts(map[])),
    ("clips", Items([])),
    ("uploaded_file", Nothing),
    ("article_text", Str("")),
    ("translated_text", Str("")),
    ("srt_captions", Str("")),
    ("analyze_clicked", Flag(false))
  ]

  const Defaults: State := map[
    "stage" := InputStage,
    "segments" := Segs([]),
    "transcript" := Str(""),
    "summary" := Str(""),
    "generated" := Posts(map[]),
    "clips" := Items([]),
    "uploaded_file" := Nothing,
    "article_text" := Str(""),
    "translated_text" := Str(""),
    "srt_captions" := Str(""),
    "analyze_clicked" := Flag(false)
  ]

  /** Every key missing from `st` gets its default; no present key is
      touched. */
  function ApplyDefaults(st: State): (r: State)
    ensures r.Keys == st.Keys + Defaults.Keys
    ensures forall k :: k in st ==> r[k] == st[k]
    ensures forall k :: k in Defaults && k !in st ==> r[k] == Defaults[k]
  {
    map k | k in st.Keys + Defaults.Keys :: if k in st then st[k] else Defaults[k]
  }

  /** The entries list and the defaults map say the same thing. */
  lemma DefaultEntriesAreDefaults()
    ensures forall j :: 0 <= j < |DefaultEntries| ==>
              DefaultEntries[j].0 in Defaults && Defaults[DefaultEntries[j].0] == DefaultEntries[j].1
    ensures forall k :: k in Defaults ==> exists j :: 0 <= j < |DefaultEntries| && DefaultEntries[j].0 == k
  {
    forall k | k in Defaults
      ensures exists j :: 0 <= j < |DefaultEntries| && DefaultEntries[j].0 == k
    {
      if k == "stage" { assert DefaultEntries[0].0 == k; }
      else if k == "segments" { assert DefaultEntries[1].0 == k; }
      else if k == "transcript" { assert DefaultEntries[2].0 == k; }
      else if k == "summary" { assert DefaultEntries[3].0 == k; }
      else if k == "generated" { assert DefaultEntries[4].0 == k; }
      else if k == "clips" { assert DefaultEntries[5].0 == k; }
      else if k == "uploaded_file" { assert DefaultEntries[6].0 == k; }
      else if k == "article_text" { assert DefaultEntries[7].0 == k; }
      else if k == "translated_text" { assert DefaultEntries[8].0 == k; }
      else if k == "srt_captions" { assert DefaultEntries[9].0 == k; }
      else { assert DefaultEntries[10].0 == k; }
    }
  }

  /** Storing each entry in turn whose key is missing. */
  function FillFrom(st: State, entries: seq<(string, Value)>): State
    decreases |entries|
  {
    if |entries| == 0 then st
    else
      var (key, val) := entries[0];
      FillFrom(if key in st then st else st[key := val], entries[1..])
  }

  /** The keys the entries name. */
  function KeysOf(entries: seq<(string, Value)>): (keys: set<string>)
    ensures forall j :: 0 <= j < |entries| ==> entries[j].0 in keys
    ensures forall k :: k in keys ==> exists j :: 0 <= j < |entries| && entries[j].0 == k
  {
    if |entries| == 0 then {}
    else
      var rest := KeysOf(entries[1..]);
      assert forall j :: 1 <= j < |entries| ==> entries[j] == entries[1..][j - 1];
      assert forall k :: k in rest ==> exists j :: 1 <= j < |entries| && entries[j].0 == k by {
        forall k | k in rest
          ensures exists j :: 1 <= j < |entries| && entries[j].0 == k
        {
          var j :| 0 <= j < |entries[1..]| && entries[1..][j].0 == k;
          assert entries[j + 1].0 == k;
        }
      }
      {entries[0].0} + rest
  }

  /** Filling from entries that agree with a map `m` adds exactly the
      entries' missing keys, with `m`'s values, and keeps every present
      key. */
  lemma {:induction false} FillFromAdds(st: State, entries: seq<(string, Value)>, m: State)
    requires forall j :: 0 <= j < |entries| ==> entries[j].0 in m && m[entries[j].0] == entries[j].1
    ensures FillFrom(st, entries).Keys == st.Keys + KeysOf(entries)
    ensures forall k :: k in st ==> FillFrom(st, entries)[k] == st[k]
    ensures forall k :: k in FillFrom(st, entries) && k !in st ==> k in m && FillFrom(st, entries)[k] == m[k]
    decreases |entries|
  {
    if |entries| > 0 {
      var (key, val) := entries[0];
      var st1 := if key in st then st else st[key := val];
      assert forall j :: 0 <= j < |entries[1..]| ==> entries[1..][j] == entries[j + 1];
      FillFromAdds(st1, entries[1..], m);
    }
  }

  /** The defaults loop as the application writes it: for each default in
      turn, store it when its key is missing. */
  method FillDefaults(st: State) returns (r: State)
    ensures r == ApplyDefaults(st)
  {
    r := st;
    var i := 0;
    while i < |DefaultEntries|
      invariant 0 <= i <= |DefaultEntries|
      invariant FillFrom(r, DefaultEntries[i..]) == FillFrom(st, DefaultEntries)
    {
      var (key, val) := DefaultEntries[i];
      assert DefaultEntries[i..][1..] == DefaultEntries[i + 1..];
      if key !in r {
        r := r[key := val];
      }
      i := i + 1;
    }
    assert r == FillFrom(st, DefaultEntries);
    DefaultsByFilling(st);
  }

  /** Storing the default entries one by one is filling in the defaults. */
  lemma DefaultsByFilling(st: State)
    ensures FillFrom(st, DefaultEntries) == ApplyDefaults(st)
  {
    DefaultEntriesAreDefaults();
    FillFromAdds(st, DefaultEntries, Defaults);
    assert KeysOf(DefaultEntries) == Defaults.Keys;
    AgreesWithDefaults(st, FillFrom(st, DefaultEntries));
  }

  /** A state with the right keys, the old values and otherwise the
      defaults is the state with the defaults filled in. */
  lemma AgreesWithDefaults(st: State, r: State)
    requires r.Keys == st.Keys + Defaults.Keys
    requires forall k :: k in st ==> r[k] == st[k]
    requires forall k :: k in r && k !in st ==> k in Defaults && r[k] == Defaults[k]
    ensures r == ApplyDefaults(st)
  {
  }

  /** Filling in the defaults a second time changes nothing. */
  lemma ApplyDefaultsIdempotent(st: State)
    ensures ApplyDefaults(ApplyDefaults(st)) == ApplyDefaults(st)
  {
  }

  // ---------------------------------------------------------------------
  // The input stage: analysing an upload or pasted text.
  // ---------------------------------------------------------------------

  /** The result of a call that may raise. */
  datatype Outcome<T> = Ok(value: T) | Raised(error: string)

  /** The collaborators the analysis relies on: writing the upload to a
      temporary file (its path), transcribing the file at a path (the
      segments and the full text), and summarising a text. */
  datatype Tools = Tools(
    store: Upload -> Outcome<string>,
    transcribe: string -> Outcome<(seq<Segment>, string)>,
    summarize: string -> Outcome<string>)

  /** What the input stage's widgets hold on this run. */
  datatype Inputs = Inputs(upload: Option<Upload>, pasted: string, pressed: bool)

  /** Some content to analyse: a file was uploaded or text was pasted. */
  predicate HasContent(inp: Inputs)
  {
    inp.upload.Some? || |inp.pasted| > 0
  }

  /** The exception handler: back to the input stage, button released. */
  function Failed(st: State): State
  {
    st["stage" := InputStage]["analyze_clicked" := Flag(false)]
  }

  /** Summarising the full text, then moving on to the create stage. */
  function Summarize(st: State, fullText: string, tools: Tools): State
  {
    match tools.summarize(fullText)
    case Raised(_) => Failed(st)
    case Ok(summary) => st["summary" := Str(summary)]["stage" := CreateStage]["analyze_clicked" := Flag(false)]
  }

  /** The keys the analysis may write. */
  const AnalysisKeys: set<string> :=
    {"stage", "analyze_clicked", "summary", "uploaded_file_path", "segments", "transcript", "uploaded_file", "article_text"}

  /** The analysis proper, inside its exception handler. An upload takes
      precedence over pasted text; what was stored before a call raised
      stays stored. */
  function Analyze(st: State, inp: Inputs, tools: Tools): (r: State)
    requires HasContent(inp)
    ensures "stage" in r && (r["stage"] == InputStage || r["stage"] == CreateStage)
    ensures "analyze_clicked" in r && r["analyze_clicked"] == Flag(false)
    ensures r["stage"] == CreateStage ==> "summary" in r && "transcript" in r
    ensures inp.upload.None? ==> "transcript" in r && r["transcript"] == Str(inp.pasted)
                                 && "article_text" in r && r["article_text"] == Str(inp.pasted)
    ensures inp.upload.Some? && tools.store(inp.upload.value).Ok? ==>
              var path := tools.store(inp.upload.value).value;
              && "uploaded_file_path" in r && r["uploaded_file_path"] == Str(path)
              && (tools.transcribe(path).Ok? ==>
                    && "segments" in r && r["segments"] == Segs(tools.transcribe(path).value.0)
                    && "transcript" in r && r["transcript"] == Str(tools.transcribe(path).value.1)
                    && "uploaded_file" in r && r["uploaded_file"] == File(inp.upload.value))
    ensures st.Keys <= r.Keys && r.Keys <= st.Keys + AnalysisKeys
    ensures forall k :: k in st && k !in AnalysisKeys ==> r[k] == st[k]
  {
    match inp.upload
    case Some(upload) =>
      (match tools.store(upload)
       case Raised(_) => Failed(st)
       case Ok(path) =>
         var st1 := st["uploaded_file_path" := Str(path)];
         match tools.transcribe(path)
         case Raised(_) => Failed(st1)
         case Ok(result) =>
           var st2 := st1["segments" := Segs(result.0)]["transcript" := Str(result.1)]["uploaded_file" := File(upload)];
           Summarize(st2, result.1, tools))
    case None =>
      Summarize(st["transcript" := Str(inp.pasted)]["article_text" := Str(inp.pasted)], inp.pasted, tools)
  }

  /** One run of the input stage: the button press is remembered, and
      while it is remembered the content is analysed, or the user is
      warned that there is none. Without a press, now or remembered,
      nothing changes. */
  function InputRun(st: State, inp: Inputs, tools: Tools): (r: State)
    ensures Get(r, "stage") == CreateStage ==> Get(st, "stage") == CreateStage || HasContent(inp)
    ensures Get(r, "stage") == Get(st, "stage") || Get(r, "stage") == InputStage || Get(r, "stage") == CreateStage
    ensures st.Keys <= r.Keys
    ensures !inp.pressed && !Truthy(Get(st, "analyze_clicked")) ==> r == st
  {
    var st1 := if inp.pressed then st["analyze_clicked" := Flag(true)] else st;
    if !Truthy(Get(st1, "analyze_clicked")) then st1
    else if !HasContent(inp) then st1["analyze_clicked" := Flag(false)]
    else Analyze(st1, inp, tools)
  }

  /** Pressing the button with nothing to analyse only warns: the stage
      stays as it was, the press is forgotten, and nothing else changes. */
  lemma NoContentOnlyWarns(st: State, inp: Inputs, tools: Tools)
    requires !HasContent(inp)
    requires inp.pressed || Truthy(Get(st, "analyze_clicked"))
    ensures InputRun(st, inp, tools) == st["analyze_clicked" := Flag(false)]
  {
  }

  /** With content and every collaborator succeeding, the run reaches the
      create stage with the summary of the transcript (for an upload) or
      of the pasted text, and the press is forgotten; an upload also
      leaves its segments and the file itself stored. */
  lemma AnalysisReachesCreate(st: State, inp: Inputs, tools: Tools)
    requires HasContent(inp)
    requires inp.pressed || Truthy(Get(st, "analyze_clicked"))
    requires inp.upload.Some? ==> tools.store(inp.upload.value).Ok?
    requires inp.upload.Some? ==> tools.transcribe(tools.store(inp.upload.value).value).Ok?
    ensures var fullText := if inp.upload.Some?
                            then tools.transcribe(tools.store(inp.upload.value).value).value.1
                            else inp.pasted;
            var r := InputRun(st, inp, tools);
            tools.summarize(fullText).Ok? ==>
              && r["stage"] == CreateStage
              && r["analyze_clicked"] == Flag(false)
              && r["summary"] == Str(tools.summarize(fullText).value)
              && r["transcript"] == Str(fullText)
              && (inp.upload.Some? ==>
                    && r["segments"] == Segs(tools.transcribe(tools.store(inp.upload.value).value).value.0)
                    && r["uploaded_file"] == File(inp.upload.value))
  {
  }

  /** When any collaborator raises, the run stays in (or returns to) the
      input stage with the press forgotten; what was stored before the
      failure, such as the temporary file's path, is kept, and nothing the
      failed call would have led to is written: the summary is untouched,
      and a failed temporary-file write changes only the stage and the
      press. */
  lemma FailureReturnsToInput(st: State, inp: Inputs, tools: Tools)
    requires HasContent(inp)
    requires inp.pressed || Truthy(Get(st, "analyze_clicked"))
    ensures var r := InputRun(st, inp, tools);
            var stored := if inp.upload.Some? then tools.store(inp.upload.value) else Ok("");
            var fullText := if inp.upload.Some? && stored.Ok? && tools.transcribe(stored.value).Ok?
                            then tools.transcribe(stored.value).value.1 else inp.pasted;
            var raised := stored.Raised?
                          || (inp.upload.Some? && tools.transcribe(stored.value).Raised?)
                          || tools.summarize(fullText).Raised?;
            && (raised ==> r["stage"] == InputStage && r["analyze_clicked"] == Flag(false))
            && (!raised ==> r["stage"] == CreateStage)
            && (inp.upload.Some? && stored.Ok? ==> r["uploaded_file_path"] == Str(stored.value))
            && (raised ==> Get(r, "summary") == Get(st, "summary"))
            && (inp.upload.Some? && stored.Raised? ==> r == st["stage" := InputStage]["analyze_clicked" := Flag(false)])
  {
  }

  // ---------------------------------------------------------------------
  // Starting over.
  // ---------------------------------------------------------------------

  /** "Analyze New Content": every key but `stage` is deleted, and the
      stage goes back to `input`. */
  function Reset(st: State): (r: State)
    ensures r.Keys == {"stage"}
    ensures r["stage"] == InputStage
  {
    var kept := map k | k in st.Keys && k == "stage" :: st[k];
    kept["stage" := InputStage]
  }

  /** After starting over, the next run's defaults restore the state a
      fresh session starts with. */
  lemma ResetThenDefaultsIsFresh(st: State)
    ensures ApplyDefaults(Reset(st)) == Defaults
    ensures ApplyDefaults(Reset(st)) == ApplyDefaults(map[])
  {
  }

  // ---------------------------------------------------------------------
  // One run of the page script.
  // ---------------------------------------------------------------------

  /** The stage is one of the two the page knows. */
  predicate StageValid(st: State)
  {
    "stage" in st && (st["stage"] == InputStage || st["stage"] == CreateStage)
  }

  /** One run: defaults first, then the input stage's analysis, or, in
      the create stage, starting over when `startOver` is pressed. */
  function Run(st: State, inp: Inputs, startOver: bool, tools: Tools): (r: State)
    ensures var st0 := ApplyDefaults(st);
            st0["stage"] == CreateStage && startOver ==> r.Keys == {"stage"} && r["stage"] == InputStage
    ensures var st0 := ApplyDefaults(st);
            st0["stage"] != InputStage && !startOver ==> r == st0
    ensures var st0 := ApplyDefaults(st);
            !(st0["stage"] == CreateStage && startOver) ==> st.Keys + Defaults.Keys <= r.Keys
  {
    var st0 := ApplyDefaults(st);
    if st0["stage"] == InputStage then InputRun(st0, inp, tools)
    else if st0["stage"] == CreateStage && startOver then Reset(st0)
    else st0
  }

  /** From a fresh session, or any session whose stage is valid, every run
      leaves the stage valid. */
  lemma RunKeepsStageValid(st: State, inp: Inputs, startOver: bool, tools: Tools)
    requires "stage" !in st || StageValid(st)
    ensures StageValid(Run(st, inp, startOver, tools))
  {
  }

  /** A run moves from `input` to `create` only with content to analyse. */
  lemma CreateOnlyWithContent(st: State, inp: Inputs, startOver: bool, tools: Tools)
    requires Get(st, "stage") != CreateStage
    ensures Get(Run(st, inp, startOver, tools), "stage") == CreateStage ==> HasContent(inp)
  {
  }

  // ---------------------------------------------------------------------
  // Per-clip keys of the create stage.
  // ---------------------------------------------------------------------

  /** `custom_text_{i}`: the editable subtitle text of clip `i`. */
  function TextKey(i: nat): string
  {
    "custom_text_" + NatToString(i)
  }

  /** `clip_path_{i}`: the path of the finished clip `i`. */
  function ClipKey(i: nat): string
  {
    "clip_path_" + NatToString(i)
  }

  /** Each clip has its own text key and its own path key. */
  lemma ClipKeysDistinct(i: nat, j: nat)
    ensures TextKey(i) == TextKey(j) <==> i == j
    ensures ClipKey(i) == ClipKey(j) <==> i == j
    ensures TextKey(i) != ClipKey(j)
  {
    if TextKey(i) == TextKey(j) {
      assert TextKey(i)[12..] == NatToString(i);
      assert TextKey(j)[12..] == NatToString(j);
      ParseNatToString(i);
      ParseNatToString(j);
    }
    if ClipKey(i) == ClipKey(j) {
      assert ClipKey(i)[10..] == NatToString(i);
      assert ClipKey(j)[10..] == NatToString(j);
      ParseNatToString(i);
      ParseNatToString(j);
    }
    assert TextKey(i)[1] != ClipKey(j)[1];
  }

  /** The first time clip `i` is shown, its text is the stripped texts of
      the segments in its window, joined by spaces; a text already there,
      edited or not, is left alone. */
  function SeedClipText(st: State, i: nat, window: seq<Segment>): (r: State)
    ensures TextKey(i) in r && r.Keys == st.Keys + {TextKey(i)}
    ensures TextKey(i) in st ==> r == st
    ensures TextKey(i) !in st ==> r[TextKey(i)] == Str(Join(" ", seq(|window|, k requires 0 <= k < |window| => Strip(window[k].text))))
    ensures forall k :: k in st && k != TextKey(i) ==> r[k] == st[k]
  {
    if TextKey(i) in st then st
    else st[TextKey(i) := Str(Join(" ", seq(|window|, k requires 0 <= k < |window| => Strip(window[k].text))))]
  }

  /** A clip generation attempt: on success the clip's path is stored, and
      its subtitle text is replaced by the (translated) spoken text when
      both are non-empty; a failed attempt stores nothing. */
  function FinishClip(st: State, i: nat, outcome: Outcome<(string, string)>): (r: State)
    ensures outcome.Raised? ==> r == st
    ensures outcome.Ok? ==> ClipKey(i) in r && r[ClipKey(i)] == Str(outcome.value.0)
    ensures outcome.Ok? && |outcome.value.0| > 0 && |outcome.value.1| > 0 ==> TextKey(i) in r && r[TextKey(i)] == Str(outcome.value.1)
    ensures outcome.Ok? && !(|outcome.value.0| > 0 && |outcome.value.1| > 0) ==> r == st[ClipKey(i) := Str(outcome.value.0)]
    ensures forall k :: k in st && k != ClipKey(i) && k != TextKey(i) ==> k in r && r[k] == st[k]
    ensures r.Keys <= st.Keys + {ClipKey(i), TextKey(i)}
  {
    match outcome
    case Raised(_) => st
    case Ok((path, spoken)) =>
      var st1 := st[ClipKey(i) := Str(path)];
      if |path| > 0 && |spoken| > 0 then st1[TextKey(i) := Str(spoken)] else st1
  }

  /** Neither per-clip write touches the stage. */
  lemma ClipWritesKeepStage(st: State, i: nat, window: seq<Segment>, outcome: Outcome<(string, string)>)
    requires "stage" in st
    ensures "stage" in SeedClipText(st, i, window) && SeedClipText(st, i, window)["stage"] == st["stage"]
    ensures "stage" in FinishClip(st, i, outcome) && FinishClip(st, i, outcome)["stage"] == st["stage"]
  {
    assert TextKey(i)[0] != "stage"[0];
    assert ClipKey(i)[0] != "stage"[0];
  }
}

=== FILE: subtitles.dfy ===
/** The styled subtitle file (Advanced SubStation Alpha, `.ass`) written
    for a clip: timestamps as `H:MM:SS.CC`, escaped dialogue text, and one
    `Dialogue:` line per timed segment, in order. Times are exact
    non-negative reals; the translator is a parameter. */
module Subtitles {
  import opened Text

  /** A timed span of transcribed speech, in seconds. */
  datatype Segment = Segment(start: real, end: real, text: string)

  // ---------------------------------------------------------------------
  // Floor division and remainder on non-negative reals (Python's `//` and
  // `%` on floats), and the facts that tie them to whole numbers.
  // ---------------------------------------------------------------------

  function FloorDiv(x: real, m: real): int
    requires m > 0.0
  {
    (x / m).Floor
  }

  function Mod(x: real, m: real): real
    requires m > 0.0
  {
    x - m * FloorDiv(x, m) as real
  }

  lemma MulCancel(a: real, b: real, c: real)
    requires c > 0.0 && a * c <= b * c
    ensures a <= b
  {
  }

  lemma MulCancelStrict(a: real, b: real, c: real)
    requires c > 0.0 && a * c < b * c
    ensures a < b
  {
  }

  lemma RealOfProduct(a: int, b: int)
    ensures (a * b) as real == a as real * b as real
  {
  }

  /** `k` is the floor of `x / m` exactly when `x` lies between the
      multiples `k * m` and `(k + 1) * m`. */
  lemma FloorDivBetween(x: real, m: real, k: int)
    requires m > 0.0 && k as real * m <= x < (k + 1) as real * m
    ensures FloorDiv(x, m) == k
  {
    var y := x / m;
    assert y * m == x;
    MulCancel(k as real, y, m);
    assert y * m < (k + 1) as real * m;
    MulCancelStrict(y, (k + 1) as real, m);
  }

  /** Dividing by a whole number and flooring is flooring first. */
  lemma FloorScaled(x: real, n: int)
    requires x >= 0.0 && n > 0
    ensures FloorDiv(x, n as real) == x.Floor / n
  {
    var t := x.Floor;
    var q := t / n;
    assert q * n <= t && t + 1 <= (q + 1) * n;
    RealOfProduct(q, n);
    RealOfProduct(q + 1, n);
    FloorDivBetween(x, n as real, q);
  }

  /** The remainder by a whole number keeps the fraction and reduces the
      whole part modulo that number. */
  lemma ModScaled(x: real, n: int)
    requires x >= 0.0 && n > 0
    ensures Mod(x, n as real) >= 0.0
    ensures Mod(x, n as real).Floor == x.Floor % n
  {
    FloorScaled(x, n);
    var t := x.Floor;
    assert Mod(x, n as real) == x - ((t / n) * n) as real;
    assert Mod(x, n as real) == (t % n) as real + (x - t as real);
  }

  // ---------------------------------------------------------------------
  // Timestamps.
  // ---------------------------------------------------------------------

  datatype Clock = Clock(hours: nat, minutes: nat, seconds: nat, centis: nat)

  /** The four fields of an `H:MM:SS.CC` timestamp, each computed with
      floor division and remainder on the time in seconds, as the
      application does. They split the whole number of centiseconds in
      `t` exactly, with minutes and seconds below 60 and centiseconds
      below 100. */
  function ClockOf(t: real): (c: Clock)
    requires t >= 0.0
    ensures c.minutes < 60 && c.seconds < 60 && c.centis < 100
    ensures c.hours == t.Floor / 3600
    ensures c.centis == (t * 100.0).Floor % 100
    ensures c.hours * 360000 + c.minutes * 6000 + c.seconds * 100 + c.centis == (t * 100.0).Floor
  {
    var h := FloorDiv(t, 3600.0);
    var m := FloorDiv(Mod(t, 3600.0), 60.0);
    var sec := Mod(t, 60.0).Floor;
    var cs := Mod(t * 100.0, 100.0).Floor;
    ClockFields(t, h, m, sec, cs);
    Clock(h, m, sec, cs)
  }

  /** The arithmetic behind `ClockOf`, over the four computed fields. */
  lemma ClockFields(t: real, h: int, m: int, sec: int, cs: int)
    requires t >= 0.0
    requires h == FloorDiv(t, 3600.0) && m == FloorDiv(Mod(t, 3600.0), 60.0)
    requires sec == Mod(t, 60.0).Floor && cs == Mod(t * 100.0, 100.0).Floor
    ensures 0 <= h && 0 <= m < 60 && 0 <= sec < 60 && 0 <= cs < 100
    ensures h == t.Floor / 3600
    ensures cs == (t * 100.0).Floor % 100
    ensures h * 360000 + m * 6000 + sec * 100 + cs == (t * 100.0).Floor
  {
    var whole := t.Floor;
    var centis := (t * 100.0).Floor;
    FloorScaled(t, 3600);
    ModScaled(t, 3600);
    FloorScaled(Mod(t, 3600.0), 60);
    assert m == (whole % 3600) / 60;
    ModScaled(t, 60);
    assert sec == whole % 60;
    ModScaled(t * 100.0, 100);
    WholeSecondsOfCentis(t);
    SplitCentis(centis);
  }

  /** The whole seconds in `t` are its whole centiseconds over 100. */
  lemma WholeSecondsOfCentis(t: real)
    requires t >= 0.0
    ensures t.Floor == (t * 100.0).Floor / 100
  {
    FloorScaled(t * 100.0, 100);
    assert t * 100.0 / 100.0 == t;
  }

  /** A whole number of centiseconds splits into hours, minutes, seconds
      and centiseconds. */
  lemma SplitCentis(c: int)
    requires c >= 0
    ensures var w := c / 100;
            (w / 3600) * 360000 + ((w % 3600) / 60) * 6000 + (w % 60) * 100 + c % 100 == c
  {
    var w := c / 100;
    assert c == w * 100 + c % 100;
    assert w == (w / 3600) * 3600 + w % 3600;
    var r := w % 3600;
    assert r == (r / 60) * 60 + r % 60;
    assert r % 60 == w % 60 by {
      assert w == (w / 3600) * 60 * 60 + r;
      assert w == ((w / 3600) * 60 + r / 60) * 60 + r % 60;
    }
  }

  /** `H:MM:SS.CC`: unpadded hours, then two-digit minutes, seconds and
      centiseconds. */
  function FormatTimestamp(t: real): (r: string)
    requires t >= 0.0
    ensures forall i :: 0 <= i < |r| ==> IsDigit(r[i]) || r[i] == ':' || r[i] == '.'
  {
    var c := ClockOf(t);
    NatToString(c.hours) + ":" + Pad2(c.minutes) + ":" + Pad2(c.seconds) + "." + Pad2(c.centis)
  }

  /** Reads an `H:MM:SS.CC` timestamp back into whole centiseconds. */
  function ParseTimestamp(s: string): Option<nat>
  {
    if |s| < 10 then None
    else
      var n := |s|;
      if s[n - 9] != ':' || s[n - 6] != ':' || s[n - 3] != '.' then None
      else if !AllDigits(s[..n - 9]) || !AllDigits(s[n - 8..n - 6]) || !AllDigits(s[n - 5..n - 3]) || !AllDigits(s[n - 2..]) then None
      else Some(ParseNat(s[..n - 9]) * 360000 + ParseNat(s[n - 8..n - 6]) * 6000 + ParseNat(s[n - 5..n - 3]) * 100 + ParseNat(s[n - 2..]))
  }

  /** Where the fields of `H:MM:SS.CC` sit, counted from the end. */
  lemma TimestampLayout(h: string, mm: string, ss: string, cc: string)
    requires |mm| == 2 && |ss| == 2 && |cc| == 2
    ensures var s := h + ":" + mm + ":" + ss + "." + cc;
      && |s| == |h| + 9
      && s[..|s| - 9] == h && s[|s| - 9] == ':'
      && s[|s| - 8..|s| - 6] == mm && s[|s| - 6] == ':'
      && s[|s| - 5..|s| - 3] == ss && s[|s| - 3] == '.'
      && s[|s| - 2..] == cc
  {
  }

  /** A timestamp records exactly the whole number of centiseconds in the
      time it was written for. */
  lemma TimestampRoundTrip(t: real)
    requires t >= 0.0
    ensures ParseTimestamp(FormatTimestamp(t)) == Some((t * 100.0).Floor)
  {
    var c := ClockOf(t);
    TimestampLayout(NatToString(c.hours), Pad2(c.minutes), Pad2(c.seconds), Pad2(c.centis));
    ParseNatToString(c.hours);
    ParsePad2(c.minutes);
    ParsePad2(c.seconds);
    ParsePad2(c.centis);
  }

  // ---------------------------------------------------------------------
  // Escaping of dialogue text.
  // ---------------------------------------------------------------------

  /** The application's escaping: three replacements in a row, newline to
      `\N`, then `{` to `\{`, then `}` to `\}`. */
  function EscapeText(s: string): (r: string)
    ensures '\n' !in r
    ensures forall i :: 0 <= i < |r| ==> BraceEscapedAt(r, i)
    ensures '\n' !in s && '{' !in s && '}' !in s ==> r == s
  {
    EscapeIsPerCharacter(s);
    ReplaceThree(s)
  }

  /** A brace at position `i` of `r` comes right after a backslash. */
  predicate BraceEscapedAt(r: string, i: int)
    requires 0 <= i < |r|
  {
    (r[i] == '{' || r[i] == '}') ==> i > 0 && r[i - 1] == '\\'
  }

  /** What one character becomes once escaped. */
  function EscapeChar(c: char): string
  {
    if c == '\n' then "\\N"
    else if c == '{' then "\\{"
    else if c == '}' then "\\}"
    else [c]
  }

  /** Escaping stated one character at a time; `EscapeIsPerCharacter`
      proves the three-step replacement equal to it. */
  function EscapeEach(s: string): (r: string)
    ensures '\n' !in r
    ensures |r| > 0 ==> r[0] != '{' && r[0] != '}'
    ensures forall i :: 0 <= i < |r| ==> BraceEscapedAt(r, i)
    ensures '\n' !in s && '{' !in s && '}' !in s ==> r == s
  {
    if |s| == 0 then ""
    else
      var head := EscapeChar(s[0]);
      var tail := EscapeEach(s[1..]);
      assert forall i :: |head| <= i < |head| + |tail| ==> BraceEscapedAt(head + tail, i) by {
        forall i | |head| <= i < |head| + |tail|
          ensures BraceEscapedAt(head + tail, i)
        {
          assert (head + tail)[i] == tail[i - |head|];
          assert BraceEscapedAt(tail, i - |head|);
          if i > |head| {
            assert (head + tail)[i - 1] == tail[i - 1 - |head|];
          }
        }
      }
      head + tail
  }

  /** The three replacements in a row, as written. */
  function ReplaceThree(s: string): string
  {
    ReplaceChar(ReplaceChar(ReplaceChar(s, '\n', "\\N"), '{', "\\{"), '}', "\\}")
  }

  /** The three replacements distribute over concatenation. */
  lemma ReplaceThreeConcat(a: string, b: string)
    ensures ReplaceThree(a + b) == ReplaceThree(a) + ReplaceThree(b)
  {
    ReplaceCharConcat(a, b, '\n', "\\N");
    var a1 := ReplaceChar(a, '\n', "\\N");
    var b1 := ReplaceChar(b, '\n', "\\N");
    ReplaceCharConcat(a1, b1, '{', "\\{");
    ReplaceCharConcat(ReplaceChar(a1, '{', "\\{"), ReplaceChar(b1, '{', "\\{"), '}', "\\}");
  }

  /** On a single character, the three replacements are its escape. */
  lemma ReplaceThreeChar(c: char)
    ensures ReplaceThree([c]) == EscapeChar(c)
  {
    assert [c][1..] == [];
    if c == '\n' {
      assert ReplaceChar([c], '\n', "\\N") == "\\N";
      assert "\\N"[1..] == "N";
      assert "N"[1..] == "";
      assert ReplaceChar("\\N", '{', "\\{") == "\\N";
    } else if c == '{' {
      assert ReplaceChar([c], '\n', "\\N") == "{";
      assert ReplaceChar("{", '{', "\\{") == "\\{";
      assert "\\{"[1..] == "{";
      assert "{"[1..] == "";
    } else if c == '}' {
      assert ReplaceChar([c], '\n', "\\N") == "}";
      assert ReplaceChar("}", '{', "\\{") == "}";
      assert "}"[1..] == "";
    } else {
      assert ReplaceChar([c], '\n', "\\N") == [c];
      assert ReplaceChar([c], '{', "\\{") == [c];
    }
  }

  /** The three replacements in a row escape each character on its own:
      no replacement sees the characters an earlier one introduced. */
  lemma {:induction false} EscapeIsPerCharacter(s: string)
    ensures ReplaceThree(s) == EscapeEach(s)
  {
    if |s| > 0 {
      assert s == [s[0]] + s[1..];
      ReplaceThreeConcat([s[0]], s[1..]);
      ReplaceThreeChar(s[0]);
      EscapeIsPerCharacter(s[1..]);
    }
  }

  /** Backslashes are not escaped, so a text holding a backslash followed
      by `N` escapes to the same line as a text holding a line break: both
      show as a line break. */
  lemma BackslashNCollides()
    ensures EscapeText("\\N") == EscapeText("\n") == "\\N"
  {
    ReplaceThreeChar('\n');
  }

  // ---------------------------------------------------------------------
  // The subtitle document.
  // ---------------------------------------------------------------------

  /** The language name for which no translation is requested. */
  const Original := "Original"

  /** A translator: text and target language to translated text. */
  type Translator = (string, string) -> string

  /** The text shown for a segment: its stripped text, translated unless
      the target language is `Original`. */
  function SpokenText(seg: Segment, language: string, translate: Translator): (r: string)
    ensures language == Original ==> exists lo :: TrimmedSlice(seg.text, r, lo)
    ensures language == Original && |r| > 0 ==> !IsSpace(r[0]) && !IsSpace(r[|r| - 1])
    ensures language != Original ==> r == translate(Strip(seg.text), language)
  {
    var text := Strip(seg.text);
    if language != Original then translate(text, language) else text
  }

  const DialoguePrefix := "Dialogue: 0,"

  /** The fields between the end time and the text: style `Default`, no
      name, zero margins, no effect. */
  const StyleFields := "Default,,0,0,0,,"

  /** A dialogue line from its start and end timestamps and its escaped
      text: `Dialogue: 0,<start>,<end>,Default,,0,0,0,,<text>`. */
  function DialogueLine(start: string, end: string, text: string): string
  {
    DialoguePrefix + (start + ([','] + (end + ([','] + (StyleFields + text)))))
  }

  /** The dialogue line for one segment, without its line break. */
  function DialogueBody(seg: Segment, language: string, translate: Translator): string
    requires seg.start >= 0.0 && seg.end >= 0.0
  {
    DialogueLine(FormatTimestamp(seg.start), FormatTimestamp(seg.end), EscapeText(SpokenText(seg, language, translate)))
  }

  predicate NonNegativeTimes(segs: seq<Segment>)
  {
    forall i :: 0 <= i < |segs| ==> segs[i].start >= 0.0 && segs[i].end >= 0.0
  }

  /** The dialogue line of every segment, in order. */
  function DialogueBodies(segs: seq<Segment>, language: string, translate: Translator): (bodies: seq<string>)
    requires NonNegativeTimes(segs)
    ensures |bodies| == |segs|
    ensures forall i :: 0 <= i < |segs| ==> bodies[i] == DialogueBody(segs[i], language, translate)
  {
    seq(|segs|, i requires 0 <= i < |segs| => DialogueBody(segs[i], language, translate))
  }

  /** The events section: every dialogue line followed by a line break. */
  function Dialogues(segs: seq<Segment>, language: string, translate: Translator): string
    requires NonNegativeTimes(segs)
  {
    Terminated(DialogueBodies(segs, language, translate))
  }

  /** The shown text of every segment, in order. */
  function SpokenParts(segs: seq<Segment>, language: string, translate: Translator): (parts: seq<string>)
    ensures |parts| == |segs|
    ensures forall i :: 0 <= i < |segs| ==> parts[i] == SpokenText(segs[i], language, translate)
  {
    seq(|segs|, i requires 0 <= i < |segs| => SpokenText(segs[i], language, translate))
  }

  /** One dialogue line read back: start and end in whole centiseconds,
      and the (escaped) text. */
  datatype Cue = Cue(startCentis: nat, endCentis: nat, text: string)

  function ParseDialogue(line: string): Option<Cue>
  {
    match StripPrefix(DialoguePrefix, line)
    case None => None
    case Some(rest) =>
      match SplitAt(rest, ',')
      case None => None
      case Some((startText, afterStart)) =>
        match SplitAt(afterStart, ',')
        case None => None
        case Some((endText, afterEnd)) =>
          match (ParseTimestamp(startText), ParseTimestamp(endText), StripPrefix(StyleFields, afterEnd))
          case (Some(x), Some(y), Some(text)) => Some(Cue(x, y, text))
          case _ => None
  }

  /** Reading back a line laid out as the application writes it. */
  lemma DialogueLayout(a: string, b: string, e: string, x: nat, y: nat)
    requires ',' !in a && ',' !in b
    requires ParseTimestamp(a) == Some(x) && ParseTimestamp(b) == Some(y)
    ensures ParseDialogue(DialogueLine(a, b, e)) == Some(Cue(x, y, e))
  {
    var afterEnd := StyleFields + e;
    var afterStart := b + ([','] + afterEnd);
    var rest := a + ([','] + afterStart);
    StripPrefixConcat(DialoguePrefix, rest);
    SplitAtFirst(a, afterStart, ',');
    SplitAtFirst(b, afterEnd, ',');
    StripPrefixConcat(StyleFields, e);
  }

  /** The timestamp written for `t`, its whole centiseconds, and what
      the reader needs to know of the two. */
  lemma TimestampFacts(t: real) returns (stamp: string, centis: nat)
    requires t >= 0.0
    ensures stamp == FormatTimestamp(t) && centis == (t * 100.0).Floor
    ensures ',' !in stamp && ParseTimestamp(stamp) == Some(centis)
  {
    stamp := FormatTimestamp(t);
    centis := (t * 100.0).Floor;
    TimestampRoundTrip(t);
  }

  /** A dialogue line carries its segment's start and end to the
      centisecond, and its shown text escaped. */
  lemma DialogueRoundTrip(seg: Segment, language: string, translate: Translator)
    requires seg.start >= 0.0 && seg.end >= 0.0
    ensures ParseDialogue(DialogueBody(seg, language, translate))
            == Some(Cue((seg.start * 100.0).Floor, (seg.end * 100.0).Floor,
                        EscapeText(SpokenText(seg, language, translate))))
  {
    StampedLineReads(seg.start, seg.end, EscapeText(SpokenText(seg, language, translate)));
  }

  lemma StampedLineReads(s: real, t: real, e: string)
    requires s >= 0.0 && t >= 0.0
    ensures ParseDialogue(DialogueLine(FormatTimestamp(s), FormatTimestamp(t), e))
            == Some(Cue((s * 100.0).Floor, (t * 100.0).Floor, e))
  {
    var a, x := TimestampFacts(s);
    var b, y := TimestampFacts(t);
    DialogueLayout(a, b, e, x, y);
  }

  lemma SingleLineLayout(a: string, b: string, e: string)
    requires '\n' !in a && '\n' !in b && '\n' !in e
    ensures '\n' !in DialogueLine(a, b, e)
  {
  }

  /** No dialogue line holds a line break of its own. */
  lemma DialogueBodySingleLine(seg: Segment, language: string, translate: Translator)
    requires seg.start >= 0.0 && seg.end >= 0.0
    ensures '\n' !in DialogueBody(seg, language, translate)
  {
    var a := FormatTimestamp(seg.start);
    var b := FormatTimestamp(seg.end);
    var e := EscapeText(SpokenText(seg, language, translate));
    assert '\n' !in a && '\n' !in b && '\n' !in e;
    assert DialogueBody(seg, language, translate) == DialogueLine(a, b, e);
    SingleLineLayout(a, b, e);
  }

  /** The dialogue section reads back as exactly one line per segment, in
      the segments' order. */
  lemma DialogueLinePerSegment(segs: seq<Segment>, language: string, translate: Translator)
    requires NonNegativeTimes(segs)
    ensures Lines(Dialogues(segs, language, translate)) == DialogueBodies(segs, language, translate)
  {
    var bodies := DialogueBodies(segs, language, translate);
    forall i | 0 <= i < |segs|
      ensures '\n' !in bodies[i]
    {
      DialogueBodySingleLine(segs[i], language, translate);
    }
    LinesOfTerminated(bodies);
  }

  /** The two results agree: the text the `i`-th dialogue line carries is
      the escaped form of the `i`-th part of the spoken text. */
  lemma SpokenMatchesDialogue(segs: seq<Segment>, language: string, translate: Translator, i: nat)
    requires NonNegativeTimes(segs) && i < |segs|
    ensures ParseDialogue(DialogueBodies(segs, language, translate)[i]).Some?
    ensures ParseDialogue(DialogueBodies(segs, language, translate)[i]).value.text
            == EscapeText(SpokenParts(segs, language, translate)[i])
    ensures ParseDialogue(DialogueBodies(segs, language, translate)[i]).value.startCentis == (segs[i].start * 100.0).Floor
    ensures ParseDialogue(DialogueBodies(segs, language, translate)[i]).value.endCentis == (segs[i].end * 100.0).Floor
  {
    var seg := segs[i];
    var body := DialogueBodies(segs, language, translate)[i];
    var part := SpokenParts(segs, language, translate)[i];
    assert body == DialogueBody(seg, language, translate);
    assert part == SpokenText(seg, language, translate);
    BodyCarriesPart(seg, language, translate, body, part);
  }

  lemma BodyCarriesPart(seg: Segment, language: string, translate: Translator, body: string, part: string)
    requires seg.start >= 0.0 && seg.end >= 0.0
    requires body == DialogueBody(seg, language, translate) && part == SpokenText(seg, language, translate)
    ensures ParseDialogue(body) == Some(Cue((seg.start * 100.0).Floor, (seg.end * 100.0).Floor, EscapeText(part)))
  {
    DialogueRoundTrip(seg, language, translate);
  }

  /** When the target language is `Original` the translator is never
      consulted: any two translators give the same document and text. */
  lemma OriginalNeedsNoTranslator(segs: seq<Segment>, f: Translator, g: Translator, fontPath: string)
    requires NonNegativeTimes(segs)
    ensures GenerateAss(segs, Original, f, fontPath) == GenerateAss(segs, Original, g, fontPath)
  {
    assert DialogueBodies(segs, Original, f) == DialogueBodies(segs, Original, g);
    assert SpokenParts(segs, Original, f) == SpokenParts(segs, Original, g);
    assert GenerateAss(segs, Original, f, fontPath).document == GenerateAss(segs, Original, g, fontPath).document;
  }

  /** With `Original`, the spoken text is the stripped segment texts
      joined by single spaces. */
  lemma OriginalSpokenIsStripped(segs: seq<Segment>, f: Translator, fontPath: string)
    requires NonNegativeTimes(segs)
    ensures GenerateAss(segs, Original, f, fontPath).spoken
            == Join(" ", seq(|segs|, i requires 0 <= i < |segs| => Strip(segs[i].text)))
  {
    assert SpokenParts(segs, Original, f) == seq(|segs|, i requires 0 <= i < |segs| => Strip(segs[i].text));
  }

  /** The fixed header: script info, the one `Default` style, and the
      events format line. `fontPath` is the font file path the header names. */
  const ScriptInfo: string :=
    "[Script Info]\n"
    + "Title: Generated Subtitles\n"
    + "ScriptType: v4.00+\n"
    + "WrapStyle: 0\n"
    + "ScaledBorderAndShadow: yes\n"
    + "YCbCr Matrix: None\n"
    + "PlayResX: 1280\n"
    + "PlayResY: 720\n"

  const StylesAndEvents: string :=
    "[V4+ Styles]\n"
    + "Format: Name, Fontname, Fontsize, PrimaryColour, SecondaryColour, OutlineColour, BackColour, Bold, Italic, Underline, StrikeOut, ScaleX, ScaleY, Spacing, Angle, BorderStyle, Outline, Shadow, Alignment, MarginL, MarginR, MarginV, Encoding\n"
    + "Style: Default,Roboto Regular,22,&H00FFFFFF,&H000000FF,&H00000000,&H00000000,0,0,0,0,100,100,0,0,1,1.5,1,2,10,10,25,1\n"
    + "[Events]\n"
    + "Format: Layer, Start, End, Style, Name, MarginL, MarginR, MarginV, Effect, Text\n"

  function Header(fontPath: string): string
  {
    ScriptInfo + "Font: " + fontPath + "\n" + StylesAndEvents
  }

  /** The generated subtitle document and the shown texts joined by spaces. */
  datatype AssOutput = AssOutput(document: string, spoken: string)

  function GenerateAss(segs: seq<Segment>, language: string, translate: Translator, fontPath: string): (r: AssOutput)
    requires NonNegativeTimes(segs)
    ensures Header(fontPath) <= r.document
    ensures Lines(r.document[|Header(fontPath)|..]) == DialogueBodies(segs, language, translate)
    ensures r.spoken == Join(" ", SpokenParts(segs, language, translate))
  {
    var dialogues := Dialogues(segs, language, translate);
    DialogueLinePerSegment(segs, language, translate);
    var document := Header(fontPath) + dialogues;
    assert document[|Header(fontPath)|..] == dialogues;
    AssOutput(document, Join(" ", SpokenParts(segs, language, translate)))
  }
}

=== FILE: text.dfy ===
/** The handful of Python `str` operations the application relies on,
    stated over `seq<char>`: single-character replace, substring search,
    character counting, case folding, whitespace stripping, joining, and
    the decimal rendering of integers (`str(n)` and the `:02` format). */
module Text {

  datatype Option<+T> = None | Some(value: T)

  // ---------------------------------------------------------------------
  // Single-character replacement (`s.replace(c, rep)` with a one-character
  // pattern replaces every occurrence of `c`, left to right).
  // ---------------------------------------------------------------------

  function ReplaceChar(s: string, c: char, rep: string): (r: string)
    ensures c !in s ==> r == s
    ensures c !in rep ==> c !in r
    ensures forall x :: x in r ==> (x in s && x != c) || x in rep
  {
    if |s| == 0 then []
    else (if s[0] == c then rep else [s[0]]) + ReplaceChar(s[1..], c, rep)
  }

  /** Replacement distributes over concatenation. */
  lemma {:induction false} ReplaceCharConcat(a: string, b: string, c: char, rep: string)
    ensures ReplaceChar(a + b, c, rep) == ReplaceChar(a, c, rep) + ReplaceChar(b, c, rep)
  {
    if |a| == 0 {
      assert a + b == b;
    } else {
      assert (a + b)[1..] == a[1..] + b;
      ReplaceCharConcat(a[1..], b, c, rep);
    }
  }

  // ---------------------------------------------------------------------
  // Substring search (`needle in hay`).
  // ---------------------------------------------------------------------

  /** `needle` sits in `hay` starting at index `i`. */
  predicate MatchAt(needle: string, hay: string, i: int)
  {
    0 <= i && i + |needle| <= |hay| && hay[i..i + |needle|] == needle
  }

  /** Python's `needle in hay`: a left-to-right scan of the candidate
      positions; the contract ties it to the existence of a match. */
  function Occurs(needle: string, hay: string): (r: bool)
    ensures r <==> exists i :: MatchAt(needle, hay, i)
    decreases |hay|
  {
    if |hay| < |needle| then
      assert forall i :: !MatchAt(needle, hay, i);
      false
    else if hay[..|needle|] == needle then
      assert MatchAt(needle, hay, 0);
      true
    else
      var rest := Occurs(needle, hay[1..]);
      assert forall i :: MatchAt(needle, hay[1..], i) <==> MatchAt(needle, hay, i + 1) by {
        forall i
          ensures MatchAt(needle, hay[1..], i) <==> MatchAt(needle, hay, i + 1)
        {
          if 0 <= i && i + |needle| <= |hay[1..]| {
            assert hay[1..][i..i + |needle|] == hay[i + 1..i + 1 + |needle|];
          }
        }
      }
      assert !MatchAt(needle, hay, 0);
      assert (exists i :: MatchAt(needle, hay, i)) ==> exists i :: MatchAt(needle, hay[1..], i) by {
        if exists i :: MatchAt(needle, hay, i) {
          var i :| MatchAt(needle, hay, i);
          assert i != 0;
          assert MatchAt(needle, hay[1..], i - 1);
        }
      }
      rest
  }

  // ---------------------------------------------------------------------
  // Counting characters that belong to a set.
  // ---------------------------------------------------------------------

  /** Number of positions of `s` whose character lies in `chars`. */
  function Count(s: string, chars: set<char>): (r: nat)
    ensures r <= |s|
    ensures r == 0 <==> forall i :: 0 <= i < |s| ==> s[i] !in chars
  {
    if |s| == 0 then 0
    else (if s[0] in chars then 1 else 0) + Count(s[1..], chars)
  }

  /** Counting extends one character at a time from the right, which is
      the order a left-to-right loop visits the text in. */
  lemma {:induction false} CountSnoc(s: string, c: char, chars: set<char>)
    ensures Count(s + [c], chars) == Count(s, chars) + (if c in chars then 1 else 0)
  {
    if |s| == 0 {
      assert s + [c] == [c];
      assert [c][1..] == [];
    } else {
      assert (s + [c])[1..] == s[1..] + [c];
      CountSnoc(s[1..], c, chars);
    }
  }

  /** Counting one character agrees with its multiplicity in the text,
      which is what Python's `s.count(c)` returns for a one-character `c`. */
  lemma {:induction false} CountIsMultiplicity(s: string, c: char)
    ensures Count(s, {c}) == multiset(s)[c]
  {
    if |s| > 0 {
      assert s == [s[0]] + s[1..];
      assert multiset(s) == multiset([s[0]]) + multiset(s[1..]);
      CountIsMultiplicity(s[1..], c);
    }
  }

  // ---------------------------------------------------------------------
  // Case folding for keyword matching (`s.lower()`).
  // ---------------------------------------------------------------------

  /** The lower-case mapping of one character, restricted to the cases that
      can produce an ASCII letter: `A`-`Z` and the Kelvin sign (U+212A),
      whose lower-case form is `k`. */
  function LowerChar(c: char): char
  {
    if 'A' <= c <= 'Z' then (c as int + 32) as char
    else if c == '\U{212A}' then 'k'
    else c
  }

  /** A character that lower-casing changes. */
  predicate Folded(c: char)
  {
    'A' <= c <= 'Z' || c == '\U{212A}'
  }

  /** Python's `s.lower()`, as far as an ASCII keyword can tell: no ASCII
      capital is left, every character lower-casing does not change (small
      letters, digits, spaces, punctuation) is kept in place. */
  function Lower(s: string): (r: string)
    ensures |r| == |s|
    ensures forall i :: 0 <= i < |r| ==> !Folded(r[i])
    ensures forall i :: 0 <= i < |s| && !Folded(s[i]) ==> r[i] == s[i]
  {
    seq(|s|, i requires 0 <= i < |s| => LowerChar(s[i]))
  }

  /** Lower-casing twice is lower-casing once. */
  lemma LowerIdempotent(s: string)
    ensures Lower(Lower(s)) == Lower(s)
  {
  }

  /** `c` lower-cases to the lower-case ASCII character `w`: it is `w`
      itself, its capital, or, for `k`, the Kelvin sign. */
  predicate FoldsTo(c: char, w: char)
  {
    c == w || ('a' <= w <= 'z' && c as int == w as int - 32) || (w == 'k' && c == '\U{212A}')
  }

  /** All of `w` is ASCII with no capital, as the application's keywords are. */
  predicate LowerAscii(w: string)
  {
    forall j :: 0 <= j < |w| ==> w[j] as int < 128 && !('A' <= w[j] <= 'Z')
  }

  /** `w` sits in `s` at index `i` when case is ignored. */
  predicate MatchIgnoringCase(w: string, s: string, i: int)
  {
    0 <= i && i + |w| <= |s| && forall j :: 0 <= j < |w| ==> FoldsTo(s[i + j], w[j])
  }

  lemma LowerCharFolds(c: char, w: char)
    requires w as int < 128 && !('A' <= w <= 'Z')
    ensures LowerChar(c) == w <==> FoldsTo(c, w)
  {
  }

  /** Searching the lower-cased text for a lower-case ASCII keyword finds
      it exactly when it occurs in the original text up to case: `SUBSCRIBE`
      and `Subscribe` count as `subscribe`. */
  lemma OccursInLowerIgnoresCase(w: string, s: string)
    requires LowerAscii(w)
    ensures Occurs(w, Lower(s)) <==> exists i :: MatchIgnoringCase(w, s, i)
  {
    var l := Lower(s);
    forall i
      ensures MatchAt(w, l, i) <==> MatchIgnoringCase(w, s, i)
    {
      if 0 <= i && i + |w| <= |s| {
        forall j | 0 <= j < |w|
          ensures l[i + j] == w[j] <==> FoldsTo(s[i + j], w[j])
        {
          LowerCharFolds(s[i + j], w[j]);
        }
        var window := l[i..i + |w|];
        assert forall j :: 0 <= j < |w| ==> window[j] == l[i + j];
      }
    }
  }

  /** Lower-casing does not change how many characters of a set without
      ASCII letters or the Kelvin sign the text holds. */
  lemma {:induction false} CountLower(s: string, chars: set<char>)
    requires forall c :: c in chars ==> !Folded(c) && !('a' <= c <= 'z')
    ensures Count(Lower(s), chars) == Count(s, chars)
  {
    if |s| > 0 {
      assert Lower(s)[1..] == Lower(s[1..]);
      CountLower(s[1..], chars);
    }
  }

  // ---------------------------------------------------------------------
  // Whitespace stripping (`s.strip()`).
  // ---------------------------------------------------------------------

  /** Python's `str.isspace` for one character. */
  predicate IsSpace(c: char)
  {
    || c == ' ' || c == '\t' || c == '\n' || c == '\r'
    || c == '\U{000B}' || c == '\U{000C}'
    || ('\U{001C}' <= c <= '\U{001F}')
    || c == '\U{0085}' || c == '\U{00A0}' || c == '\U{1680}'
    || ('\U{2000}' <= c <= '\U{200A}')
    || c == '\U{2028}' || c == '\U{2029}' || c == '\U{202F}'
    || c == '\U{205F}' || c == '\U{3000}'
  }

  function TrimStart(s: string): (r: string)
    ensures |r| <= |s| && r == s[|s| - |r|..]
    ensures |r| > 0 ==> !IsSpace(r[0])
    ensures forall i :: 0 <= i < |s| - |r| ==> IsSpace(s[i])
  {
    if |s| > 0 && IsSpace(s[0]) then TrimStart(s[1..]) else s
  }

  function TrimEnd(s: string): (r: string)
    ensures |r| <= |s| && r == s[..|r|]
    ensures |r| > 0 ==> !IsSpace(r[|r| - 1])
    ensures forall i :: |r| <= i < |s| ==> IsSpace(s[i])
  {
    if |s| > 0 && IsSpace(s[|s| - 1]) then TrimEnd(s[..|s| - 1]) else s
  }

  /** `r` is the slice of `s` starting at `lo`, and everything of `s`
      outside that slice is whitespace. */
  predicate TrimmedSlice(s: string, r: string, lo: int)
  {
    && 0 <= lo <= |s| - |r| && r == s[lo..lo + |r|]
    && (forall i :: 0 <= i < lo ==> IsSpace(s[i]))
    && (forall i :: lo + |r| <= i < |s| ==> IsSpace(s[i]))
  }

  /** `s.strip()`: the slice of `s` that neither starts nor ends with
      whitespace, everything cut away being whitespace. */
  function Strip(s: string): (r: string)
    ensures exists lo :: TrimmedSlice(s, r, lo)
    ensures |r| > 0 ==> !IsSpace(r[0]) && !IsSpace(r[|r| - 1])
  {
    var t := TrimStart(s);
    var r := TrimEnd(t);
    assert s[|s| - |t|..][..|r|] == s[|s| - |t|..|s| - |t| + |r|];
    assert TrimmedSlice(s, r, |s| - |t|);
    r
  }

  // ---------------------------------------------------------------------
  // Searching for a character, and reading text back as lines.
  // ---------------------------------------------------------------------

  /** Position of the first `c` in `s`, or `|s|` when there is none. */
  function IndexOf(s: string, c: char): (i: nat)
    ensures i <= |s|
    ensures forall j :: 0 <= j < i ==> s[j] != c
    ensures i < |s| ==> s[i] == c
  {
    if |s| == 0 then 0
    else if s[0] == c then 0
    else 1 + IndexOf(s[1..], c)
  }

  lemma IndexOfAfter(a: string, b: string, c: char)
    requires c !in a && |b| > 0 && b[0] == c
    ensures IndexOf(a + b, c) == |a|
  {
    var s := a + b;
    assert s[|a|] == c;
    assert forall j :: 0 <= j < |a| ==> s[j] == a[j];
  }

  /** The rest of `s` after the prefix `p`, when `s` starts with `p`. */
  function StripPrefix(p: string, s: string): Option<string>
  {
    if p <= s then Some(s[|p|..]) else None
  }

  lemma StripPrefixConcat(p: string, r: string)
    ensures StripPrefix(p, p + r) == Some(r)
  {
    assert (p + r)[|p|..] == r;
  }

  /** `s` cut at its first `c`, the `c` itself dropped. */
  function SplitAt(s: string, c: char): Option<(string, string)>
  {
    var i := IndexOf(s, c);
    if i == |s| then None else Some((s[..i], s[i + 1..]))
  }

  lemma SplitAtFirst(a: string, b: string, c: char)
    requires c !in a
    ensures SplitAt(a + ([c] + b), c) == Some((a, b))
  {
    var s := a + ([c] + b);
    IndexOfAfter(a, [c] + b, c);
    assert s[..|a|] == a;
    assert s[|a| + 1..] == b;
  }

  /** The lines of `s`: the pieces between line breaks, a final line break
      ending the last line rather than starting an empty one. */
  function Lines(s: string): seq<string>
    decreases |s|
  {
    if |s| == 0 then []
    else
      var i := IndexOf(s, '\n');
      if i == |s| then [s] else [s[..i]] + Lines(s[i + 1..])
  }

  lemma LinesCons(a: string, b: string)
    requires '\n' !in a
    ensures Lines(a + "\n" + b) == [a] + Lines(b)
  {
    var s := a + "\n" + b;
    assert s == a + ("\n" + b);
    IndexOfAfter(a, "\n" + b, '\n');
    assert s[..|a|] == a;
    assert s[|a| + 1..] == b;
  }

  /** Each part followed by a line break, as a file is written line by line. */
  function Terminated(parts: seq<string>): string
  {
    if |parts| == 0 then "" else parts[0] + "\n" + Terminated(parts[1..])
  }

  /** Lines written one by one read back as the same lines. */
  lemma {:induction false} LinesOfTerminated(parts: seq<string>)
    requires forall i :: 0 <= i < |parts| ==> '\n' !in parts[i]
    ensures Lines(Terminated(parts)) == parts
  {
    if |parts| > 0 {
      LinesCons(parts[0], Terminated(parts[1..]));
      LinesOfTerminated(parts[1..]);
    }
  }

  // ---------------------------------------------------------------------
  // Joining (`sep.join(parts)`).
  // ---------------------------------------------------------------------

  function Join(sep: string, parts: seq<string>): string
  {
    if |parts| == 0 then ""
    else if |parts| == 1 then parts[0]
    else parts[0] + sep + Join(sep, parts[1..])
  }

  /** Python's `s.split(c)` for a one-character separator: the pieces
      between separators, an empty text giving one empty piece. */
  function Split(s: string, c: char): (parts: seq<string>)
    ensures |parts| >= 1
    ensures forall k :: 0 <= k < |parts| ==> c !in parts[k]
    decreases |s|
  {
    var i := IndexOf(s, c);
    if i == |s| then [s] else [s[..i]] + Split(s[i + 1..], c)
  }

  /** Joining with a space and splitting on the space gives the parts back,
      when there is at least one part and none holds a space. */
  lemma {:induction false} SplitJoin(parts: seq<string>)
    requires |parts| >= 1
    requires forall k :: 0 <= k < |parts| ==> ' ' !in parts[k]
    ensures Split(Join(" ", parts), ' ') == parts
  {
    if |parts| > 1 {
      SplitCons(parts[0], Join(" ", parts[1..]), ' ');
      SplitJoin(parts[1..]);
      assert parts == [parts[0]] + parts[1..];
    }
  }

  lemma SplitCons(a: string, b: string, c: char)
    requires c !in a
    ensures Split(a + [c] + b, c) == [a] + Split(b, c)
  {
    var s := a + [c] + b;
    assert s == a + ([c] + b);
    IndexOfAfter(a, [c] + b, c);
    assert s[..|a|] == a;
    assert s[|a| + 1..] == b;
  }

  // ---------------------------------------------------------------------
  // Decimal rendering: `str(n)`, `f"{n:02}"`, and their inverses.
  // ---------------------------------------------------------------------

  predicate IsDigit(c: char)
  {
    '0' <= c <= '9'
  }

  predicate AllDigits(s: string)
  {
    forall i :: 0 <= i < |s| ==> IsDigit(s[i])
  }

  function DigitChar(d: nat): (c: char)
    requires d < 10
    ensures IsDigit(c)
  {
    ('0' as int + d) as char
  }

  function DigitValue(c: char): nat
  {
    if IsDigit(c) then c as int - '0' as int else 0
  }

  /** `str(n)` for a natural number: canonical decimal, no leading zero. */
  function NatToString(n: nat): (r: string)
    ensures |r| >= 1 && AllDigits(r)
    ensures r[0] == '0' ==> n == 0
    ensures n < 10 <==> |r| == 1
  {
    if n < 10 then [DigitChar(n)]
    else NatToString(n / 10) + [DigitChar(n % 10)]
  }

  /** The value of a string of decimal digits. */
  function ParseNat(s: string): nat
  {
    if |s| == 0 then 0
    else ParseNat(s[..|s| - 1]) * 10 + DigitValue(s[|s| - 1])
  }

  lemma {:induction false} ParseNatToString(n: nat)
    ensures ParseNat(NatToString(n)) == n
  {
    var s := NatToString(n);
    if n >= 10 {
      assert s[..|s| - 1] == NatToString(n / 10);
      ParseNatToString(n / 10);
    }
  }

  /** `f"{n:02}"` for a natural number: zero-padded to at least two digits. */
  function Pad2(n: nat): (r: string)
    ensures |r| >= 2 && AllDigits(r)
    ensures n < 100 <==> |r| == 2
  {
    if n < 10 then "0" + [DigitChar(n)] else NatToString(n)
  }

  lemma ParsePad2(n: nat)
    ensures ParseNat(Pad2(n)) == n
  {
    if n < 10 {
      assert Pad2(n)[..1] == "0";
      assert ParseNat("0") == 0 by { assert "0"[..0] == ""; }
    } else {
      ParseNatToString(n);
    }
  }

  /** `str(n)` for any integer: a minus sign before the digits of a negative number. */
  function IntToString(n: int): (r: string)
    ensures |r| >= 1
    ensures n < 0 <==> r[0] == '-'
  {
    if n < 0 then "-" + NatToString(-n) else NatToString(n)
  }

  function ParseInt(s: string): int
  {
    if |s| > 0 && s[0] == '-' then -(ParseNat(s[1..]) as int) else ParseNat(s)
  }

  lemma ParseIntToString(n: int)
    ensures ParseInt(IntToString(n)) == n
  {
    if n < 0 {
      assert IntToString(n)[1..] == NatToString(-n);
      ParseNatToString(-n);
    } else {
      ParseNatToString(n);
    }
  }
}
